=== FILE: README.md ===
# Post cache and feed pager of next-mongo-blog, in Dafny

This project models two pieces of the blog, each as a pure state machine:

- **The server-side post cache.** This is a read-through cache of feed pages that sits in front of the database (`RedisConnection`).
  - A *feed* is one owner's private or public posts, or the global public feed.
  - Each feed has an *index hash* keyed by the feed key. Its fields are page descriptors (date cursor plus page size). Each value is the `|`-terminated list of the page's post ids.
  - The page payload itself sits under a *page key*: the feed key, the date tag, then the descriptor.
  - `read` consults the payload only when the index has a non-empty entry for the page.
  - `write` stores the id list, then the payload.
  - There are two invalidation policies. `newPostCreated` deletes whole index hashes. `resetCache` walks three index hashes, drops only the entries whose id list mentions a post, and deletes those entries' page keys.
- **The client feed pager (`usePaginatePosts`).** It tracks the post list shown, a date cursor, a loading latch released by a throttle timer, the request status and a sticky end-of-feed flag.

The cache backend is an abstract store (`Store.Db`):
- one namespace maps each key to a post list (`Doc`) or a hash of string fields (`Hash`);
- an expiry map gives deadlines on a logical clock in seconds;
- every backend call takes an explicit `Fault`: `Ok`, `Error` (the call's catch path runs), or `Timeout` (the backend never answers, so a timeout wrapper returns its default).

`DEFAULT_EXPIRE = 600` and `PAGINATE_LIMIT = 8` are the constants of `consts.ts`.

The `Flag` tags that key derivation splices in come from an enumeration that is not part of this model. They are the `Keys.Flags` parameter. No fact here depends on their contents except through the explicit assumption `Keys.Reserved`. That assumption says some character `c` occurs in the date tag, but not in the user tag, the private tag, `"true"` or `"false"`. It is paired with `Keys.Clear`: the usernames involved do not contain `c`.

Under that assumption:
- page keys and feed keys never collide;
- a page key determines its feed and descriptor.

The typing invariant `Cache.Typed` (documents sit exactly at the keys that carry `c`) is not a consequence of the assumption. `write` keeps it (`Cache.WriteKeepsTyped`), and so does every change that only shrinks the store (`Cache.ShrinksKeepTyped`): `newPostCreated` (`Cache.NewPostKeepsTyped`) and `resetCache`, whose contract states that it only shrinks the store.

Feed keys of the four (owner, visibility) combinations are distinct without any assumption, thanks to the `"true"`/`"false"` suffix.

Modules:
- `Wrappers`: `Option`.
- `Strings`: `${n}` rendering, `includes`, separator splitting.
- `Consts` and `Posts`: the constants and the post record.
- `Keys`: key derivation.
- `Store`: the abstract backend.
- `Cache`: read, write and the two invalidations.
- `Pager`: the feed hook.

## Model

| member | source | states |
|---|---|---|
| Keys.PrimaryKey | lib/server/RedisConnection.ts:250-254 | a feed key starts with the user tag, and ends in `true` exactly when `isPrivate \|\| false` holds |
| Keys.PrimaryKeyInjective | lib/server/RedisConnection.ts:250-254 | two feed keys are equal iff the owners agree after `\|\| ""` and the flags agree after `\|\| false`, so an undefined and an empty username give the same feed |
| Keys.FeedKeysDistinct | lib/server/RedisConnection.ts:195-197 | for a named user, the user's private and public feeds and the global private and public feeds are four different keys |
| Keys.GetKeys | lib/server/RedisConnection.ts:256-261 | the page key is the feed key, then the date tag, then the descriptor; the feed key is its prefix |
| Keys.FirstPageSentinel | lib/server/RedisConnection.ts:145 | an omitted date and an empty date give identical keys, and the descriptor then starts with the `CURRENT` sentinel |
| Keys.DescriptorSeparatesLimits | lib/server/RedisConnection.ts:258 | with the same cursor, two page sizes give the same descriptor iff they are equal |
| Strings.IntToStringInjective | lib/server/RedisConnection.ts:258 | `${limit}` renders two integers the same iff they are equal |
| Keys.FeedKeyClear | lib/server/RedisConnection.ts:250-254 | under the separation assumption, no feed key contains the reserved character |
| Keys.PageKeyMarked | lib/server/RedisConnection.ts:259 | under the separation assumption, every page key contains the reserved character |
| Keys.PageKeyInjective | lib/server/RedisConnection.ts:259 | under the separation assumption, two page keys are equal iff their feeds and descriptors are equal |
| Store.HSet | lib/server/RedisConnection.ts:28-51 | setting a field stores the text and sets the key's deadline to now + 600; a post list at the key is left in place, though its deadline is still set; an error changes nothing; only a timeout stops the chain |
| Store.SetDoc | lib/server/RedisConnection.ts:28-51 | a successful `set` replaces the key's value with the posts and gives it the full lifetime; no other key changes; a failure changes nothing |
| Store.Get | lib/server/RedisConnection.ts:53-80 | a hit returns the stored posts and refreshes the TTL; a miss, a hash at the key, an error or a timeout returns the caller's default and changes nothing |
| Store.GetMap | lib/server/RedisConnection.ts:82-112 | an answered call returns all fields (none for a missing key) and refreshes the TTL of a hash; a rejected call gives `{}`; a timeout gives `null` |
| Store.Del | lib/server/RedisConnection.ts:114-128 | an empty key list does nothing; a successful call removes exactly the listed keys; surviving keys keep their values and deadlines; the clock does not move |
| Store.HDel | lib/server/RedisConnection.ts:130-140 | removes one field; an absent field or a failure changes nothing; other keys keep their values; every surviving key keeps its deadline; the clock does not move |
| Store.HDelExtends | lib/server/RedisConnection.ts:224 | one more `hdel` equals the batch removal of the enlarged field set |
| Store.SetThenGet | lib/server/RedisConnection.ts:42 | a stored post list reads back until 600 s have passed and is gone from then on |
| Cache.IdList | lib/server/RedisConnection.ts:180-181 | the id list is empty iff the page is empty, and otherwise ends in `\|` |
| Cache.IdListMentions | lib/server/RedisConnection.ts:180-181 | every post of a page is found by `includes` in the page's id list |
| Cache.Read | lib/server/RedisConnection.ts:142-163 | the ETag is always the page key; without a non-empty index entry (or when the scan fails) the data is `[]`, whatever payload is stored; with an entry, the data is the stored payload; stored values are never changed; an answered scan of an index hash gives it the full lifetime, and so does an answered read of the page on a hit; every other key, and each of the two keys when its call is not answered, keeps its deadline |
| Cache.Write | lib/server/RedisConnection.ts:165-186 | an empty page changes nothing; otherwise the index entry holds the id list, the page key holds the posts, both get the full lifetime, and every other key keeps its value and deadline; a timed-out index write stops the chain and changes nothing; a rejected connection for the index write leaves the index key as it was (value and deadline), and one for the page write leaves the page key as it was |
| Cache.WriteThenRead | lib/server/RedisConnection.ts:165-186 | for every username and every store with no post list at the feed key, a write followed by a read with the same arguments returns the posts in order, with the page key as ETag, while less than 600 s have passed; from then on it returns `[]` |
| Cache.WriteIdempotent | lib/server/RedisConnection.ts:165-186 | writing the same page twice leaves the store as one write does |
| Cache.WriteKeepsTyped | lib/server/RedisConnection.ts:165-186 | under the separation assumption, a write keeps post lists at page keys and hashes at feed keys |
| Cache.NewPostKeepsTyped | lib/server/RedisConnection.ts:231-248 | deleting feed indexes keeps post lists at page keys and hashes at feed keys |
| Cache.ResetHelper | lib/server/RedisConnection.ts:216-229 | the live hash loses exactly the fields whose snapshot entry mentions the post id; the returned keys are exactly those fields' page keys |
| Cache.ScannedFeedsScope | lib/server/RedisConnection.ts:195-197 | the scan covers the author's private and public feeds; it covers the global public feed exactly when the post is not private, and otherwise the empty key stands in |
| Cache.ScanThree | lib/server/RedisConnection.ts:199 | each answered scan, taken on its own, reads its live index and gives a hash there the full lifetime; a rejected scan yields `{}`; a scan yields `null` exactly when it times out; any snapshot is the live index or `{}`; scans change no stored value and no deadline of another key |
| Cache.ScanAndDelete | lib/server/RedisConnection.ts:199-207 | the store only shrinks and every surviving key keeps the deadline it had after the scans; under any faults, only the scanned feeds and the hit pages of the post can change (the helpers collect page keys only from hit entries of the live index); after a `null` snapshot, or when the delete fails, every key outside the scanned feeds keeps its value; with every call answered, the result is `Invalidated` |
| Cache.ResetCache | lib/server/RedisConnection.ts:188-214 | a post without an id leaves the store as it is; under any faults the store only shrinks, every surviving key outside the scanned feeds keeps its deadline, and every key other than the scanned feeds and the post's hit pages keeps its value; when a scan times out or the delete fails, every key outside the scanned feeds keeps its value; with no faults, every hit page is gone, each scanned index lost exactly its hit entries, every other key keeps its value and deadline, and a surviving scanned index has the full lifetime from its scan |
| Cache.ResetPageMisses | lib/server/RedisConnection.ts:216-229 | after a complete reset, a page whose index entry mentioned the post reads as `[]` |
| Cache.ResetKeepsOtherPages | lib/server/RedisConnection.ts:188-229 | under the separation assumption, every other page reads after a reset exactly as before |
| Cache.NewPostCreated | lib/server/RedisConnection.ts:231-248 | with the delete answered, exactly the scope's keys are removed; on failure nothing changes; surviving keys keep their values and deadlines |
| Cache.CreatedScopeShape | lib/server/RedisConnection.ts:233-240 | a private post touches only the author's private feed; a public post by a named author touches three distinct feeds |
| Cache.CreatedFeedMisses | lib/server/RedisConnection.ts:231-241 | after a new post, every page of an invalidated feed reads as `[]` |
| Cache.CreatedKeepsOtherFeeds | lib/server/RedisConnection.ts:231-241 | under the separation assumption, every page of any other feed reads as before, even if the delete fails |
| Cache.ReadSeesIndexAndPage | lib/server/RedisConnection.ts:155-160 | two stores that agree on a page's index entry and payload answer the same read |
| Pager.Init | hooks/usePaginatePosts.ts:16-20 | the pager starts with `initPosts \|\| []`, an empty cursor, nothing loading, status idle and the end not reached, and in a state that satisfies the invariant `Inv` |
| Pager.RunFromInit | hooks/usePaginatePosts.ts:16-53 | from the hook's initial state, along any event sequence, `Inv` holds and the requests sent are at most the throttle releases plus one |
| Pager.CursorOf | hooks/usePaginatePosts.ts:42-44 | the cursor becomes the parsed instant when the date parses and NaN when it does not, and is never again the empty string; it is truthy iff the date parses to a non-zero instant |
| Pager.BuildQuery | hooks/usePaginatePosts.ts:28-34 | the query always carries `limit`; `isPrivate` is false iff the feed is public; `createdAt` is present iff the cursor is truthy, and carries its instant; `username` is present iff one is given |
| Pager.QueryByCursor | hooks/usePaginatePosts.ts:32 | all falsy cursors (empty, 0, NaN) ask for the first page; two truthy cursors ask for the same page iff they are equal |
| Pager.LoadMore | hooks/usePaginatePosts.ts:24-36 | a request is sent iff the feed is loadable (public, or a username given) and nothing is loading; a blocked call changes nothing; a sent one takes the latch and sets the status to pending |
| Pager.EndDoesNotBlock | hooks/usePaginatePosts.ts:24 | the end-of-feed flag has no effect on whether `loadMore` sends |
| Pager.Merge | hooks/usePaginatePosts.ts:41 | with a truthy cursor the list is the old list followed by the page; otherwise it is the page alone |
| Pager.Settle | hooks/usePaginatePosts.ts:36-54 | status returns to idle and an unlock is scheduled; on 200 with posts, the list is merged and the cursor moves to the last post's date; `limitReached` is set iff the page is shorter than `limit` or the message is `POST_NA`, and is never cleared; a non-200 response keeps posts, cursor and flag |
| Pager.Unlock | hooks/usePaginatePosts.ts:52 | the throttle timer keeps the invariant; afterwards the latch is held iff it was held with no unlock due, and no unlock is due; posts, cursor, status and end flag are unchanged |
| Pager.Step | hooks/usePaginatePosts.ts:22-62 | every event keeps the invariant; `limitReached` is never cleared; only the throttle releases the latch; only a `loadMore` on a free latch sends a request |
| Pager.RunKeepsInv | hooks/usePaginatePosts.ts:24-53 | over any event sequence, a pending request holds the latch, and a scheduled unlock follows a settled request |
| Pager.RunSticky | hooks/usePaginatePosts.ts:17 | once the end is reached, it stays reached along any event sequence |
| Pager.RunRequestsBounded | hooks/usePaginatePosts.ts:24-25 | along any event sequence, requests sent are at most the throttle releases plus one for a free latch |
| Pager.RunLatchHolds | hooks/usePaginatePosts.ts:52 | without a throttle release, the latch stays taken and no request is sent |
| Pager.RunAppendsOnly | hooks/usePaginatePosts.ts:39-45 | with the corrected response callback, once the cursor is set and as long as every successful non-empty page ends in a date that parses to a non-zero instant, the list shown only grows: the old list is a prefix of the new |
| Pager.FirstPullReplaces | hooks/usePaginatePosts.ts:39-50 | the first 200 response replaces the seeded list with the page; a page shorter than `limit`, or the `POST_NA` message, ends the feed |
| Pager.Renewed | hooks/usePaginatePosts.ts:57 | the memoised callback sees the current list when the list's length changed, and keeps the list it was made with otherwise |

## Findings

| source | as written | input that shows it | evidently intended | confidence | as-written member | corrected member |
|---|---|---|---|---|---|---|
| hooks/usePaginatePosts.ts:41 | the append uses the `posts` captured by a callback memoised on `posts?.length`, so after a first pull that returns as many posts as the page was seeded with, the next page is appended to the seed | seed `[a]`, limit 1; the first pull returns `[b]`, so `[b]` is shown; the next pull returns `[c]`; the list becomes `[a, c]` | append to the list shown: `[b, c]` | medium, not executed | Pager.StaleAppend | Pager.Respond |

`Pager.RespondAsWritten` is the response callback as written. It appends to the list its closure captured; `Pager.StaleAppend` exhibits the run above. `Pager.Respond` appends to the list shown, and the event machine (`Pager.Step`) uses it. `Pager.RunAppendsOnly` proves that the list shown then only ever grows, and `Pager.StaleAppend` shows that it yields `[b, c]` on the same run.

## Left out

- The Redis client is left out: connect, quit, `keepAlive`, and the promise plumbing around calls. Each call is one store transition with a `Fault`.
- Timeouts are modelled as calls that never answer. A late effect of such a call, after the timeout wrapper has returned its default, is not modelled.
- Fire-and-forget calls take effect in program order, before the next call: `hdel`, the per-key `del`, `expire`, and the inner `HSET`/`set` of `set`. No interleaving of concurrent requests is modelled.
- Cache.ResetHelper: every `hdel` it issues is assumed to succeed. A failed `hdel` (which only logs) would leave its field in the hash.
- Store.Del: the per-key deletes succeed or fail together. Independent failures of the unawaited `del` calls are not modelled.
- Store.HSet: `HSET` against a post list is rejected without a handler. The model keeps the data and still runs `expire`, as the chain does. It does not model the process-level unhandled-rejection behaviour.
- Store.SetDoc, Store.HSet: `Error` stands for a rejected connection, so nothing runs. The `SET`/`HSET` call is not returned from its `then` step, so the chain does not wait for it. If `expire` alone were rejected, the new value would stay without a TTL, and a plain `SET` would also have cleared the old one. That partial outcome is not modelled, and Cache.Write's fault clauses rest on this reading of `Error`.
- Cache.ResetCache: the model returns the store unchanged for a post without an id. It does not model that the returned promise then never settles.
- Cache.ResetCache, Cache.ScanAndDelete: a timed-out scan yields `null`, and the next helper call throws. The model stops there: the hdels already issued stay, and `del` never runs. The exact `TypeError` and its logging are not modelled. Which index entries the earlier helpers removed on that path is not stated in a contract. The contracts state that the store shrinks and that keys outside the scanned feeds keep their values and deadlines.
- JSON serialisation is assumed to round-trip: stored post lists are kept decoded.
- The `HGET` branch of `_get` is not modelled, since nothing in the cache uses it.
- Logging is not modelled.
- The contents of the `Flag` tags are not part of this model; they are the `Flags` parameter.
- Cache.ResetKeepsOtherPages: compares reads at the same instant. The scans refresh the lifetime of the scanned index hashes, so a later read can find an entry that would otherwise have expired.
- Cache.ResetKeepsOtherPages, Cache.CreatedKeepsOtherFeeds, Cache.WriteKeepsTyped: stated under the separation assumption `Keys.Reserved`/`Keys.Clear`. Without it, a username containing the date tag could make a feed key equal a page key.
- `newPostCreated` deletes only the feed index hashes (`Cache.NewPostCreated`). The page payloads stay until they expire; a read of such a page misses because its index entry is gone (`Cache.CreatedFeedMisses`).
- `resetCache` scans the author's private and public feeds, plus the global public feed when the post is public (the empty key otherwise). A post whose visibility changed is not looked up under its old feed.
- Pager: the React machinery is not modelled (`useState`, `useRef`, re-renders, the toast, and the 1000 ms wall-clock delay). The delay is the separate `Throttle` event.
- Pager: the `ready` effect is not separated out. Each time it calls `loadMore`, that call is a `Load` event.
- Pager: a rejected HTTP request is not modelled. Its `then` never runs, so the latch and the pending status would stay forever.
- Pager: date parsing (`new Date(s).valueOf()`) is the `toMillis` parameter, and the `POST_NA` text is the `postNA` parameter.
- Pager.RunAppendsOnly: assumes that each successful non-empty page that arrives ends in a date parsing to a non-zero instant. A date that gives NaN or 0 makes the cursor falsy again, and the next page then replaces the list.
- Pager.Step, Pager.RunAppendsOnly: the event machine uses the corrected response callback `Pager.Respond`, which appends to the list shown. The hook as written appends to the list its memoised callback captured (`Pager.RespondAsWritten`), and there "the list shown only grows" fails (`Pager.StaleAppend`).
- Strings.IntToString: renders integers in plain decimal. JavaScript prints numbers of magnitude 10^21 and above in exponent form (`1e+21`); page sizes that large are not modelled.
- Pager.Respond: a response that arrives with no request pending is ignored.

=== FILE: cache.dfy ===
/** The read-through post cache: page reads gated by the feed's index hash,
    write-back of a fetched page, and the two invalidation policies (wipe a
    whole feed index when a post is created, drop exactly the indexed pages
    that mention a post when it changes). */
module Cache {
  import opened Wrappers
  import opened Posts
  import opened Keys
  import opened Store
  import Strings
  import Consts

  /** What `read` resolves to: the page and its ETag. */
  datatype Page = Page(data: seq<Post>, etag: string)

  function KeysOf(fl: Flags, username: Option<string>, isPrivate: Option<bool>,
                  date: Option<string>, limit: Option<int>): (ks: KeySet) {
    GetKeys(fl, username, isPrivate, date, Consts.LimitOr(limit))
  }

  /** The feed's index has a non-empty entry for the page. */
  predicate Indexed(db: Db, ks: KeySet) {
    var m := FieldsAt(db, ks.queryKey);
    ks.queryDateLimit in m && m[ks.queryDateLimit] != ""
  }

  /** The identifiers of a page, each followed by `|`, in page order. */
  function IdList(posts: seq<Post>): (s: string)
    ensures s == "" <==> |posts| == 0
    ensures |posts| > 0 ==> s[|s| - 1] == '|'
  {
    if |posts| == 0 then "" else posts[0].id + "|" + IdList(posts[1..])
  }

  /** Every post of a page is found in its id list. */
  lemma {:induction false} IdListMentions(posts: seq<Post>, i: nat)
    requires i < |posts|
    ensures Strings.Includes(IdList(posts), posts[i].id)
    decreases i
  {
    var rest := IdList(posts[1..]);
    assert IdList(posts) == posts[0].id + "|" + rest;
    if i == 0 {
      Strings.IncludesMiddle("", posts[0].id, "|" + rest);
      assert "" + posts[0].id + ("|" + rest) == posts[0].id + "|" + rest;
    } else {
      assert posts[1..][i - 1] == posts[i];
      IdListMentions(posts[1..], i - 1);
      Strings.IncludesAfter(posts[0].id + "|", rest, posts[i].id);
    }
  }

  /** `read`: consult the page payload only when the feed's index has an
      entry for the page; the ETag is always the page key. */
  function Read(fl: Flags, db: Db, username: Option<string>, isPrivate: Option<bool>,
                date: Option<string>, limit: Option<int>, fMap: Fault, fGet: Fault): (r: (Page, Db))
    ensures r.0.etag == KeysOf(fl, username, isPrivate, date, limit).cacheKey
    ensures !(fMap == Ok && Indexed(db, KeysOf(fl, username, isPrivate, date, limit))) ==> r.0.data == []
    ensures var ks := KeysOf(fl, username, isPrivate, date, limit);
            fMap == Ok && Indexed(db, ks) && fGet == Ok && HoldsDoc(db, ks.cacheKey)
            ==> r.0.data == db.data[ks.cacheKey].posts
    ensures var ks := KeysOf(fl, username, isPrivate, date, limit);
            !(fGet == Ok && HoldsDoc(db, ks.cacheKey)) ==> r.0.data == []
    ensures r.1.data == db.data && r.1.now == db.now
    ensures var ks := KeysOf(fl, username, isPrivate, date, limit);
            forall k :: k != ks.queryKey && k != ks.cacheKey ==> SameDeadline(db, r.1, k)
    ensures var ks := KeysOf(fl, username, isPrivate, date, limit);
            fMap == Ok && HashAt(db, ks.queryKey)
            ==> ks.queryKey in r.1.expiry && r.1.expiry[ks.queryKey] == Deadline(db)
    ensures var ks := KeysOf(fl, username, isPrivate, date, limit);
            !(fMap == Ok && HashAt(db, ks.queryKey)) ==> SameDeadline(db, r.1, ks.queryKey)
    ensures var ks := KeysOf(fl, username, isPrivate, date, limit);
            fMap == Ok && Indexed(db, ks) && fGet == Ok && HoldsDoc(db, ks.cacheKey)
            ==> ks.cacheKey in r.1.expiry && r.1.expiry[ks.cacheKey] == Deadline(db)
    ensures var ks := KeysOf(fl, username, isPrivate, date, limit);
            !(fMap == Ok && Indexed(db, ks) && fGet == Ok && HoldsDoc(db, ks.cacheKey))
            ==> SameDeadline(db, r.1, ks.cacheKey)
    ensures Valid(db) ==> Valid(r.1)
  {
    var ks := KeysOf(fl, username, isPrivate, date, limit);
    var (pMap, db1) := GetMap(db, ks.queryKey, fMap);
    if pMap.None? || ks.queryDateLimit !in pMap.value || pMap.value[ks.queryDateLimit] == "" then
      (Page([], ks.cacheKey), db1)
    else
      var (data, db2) := Get(db1, ks.cacheKey, [], fGet);
      (Page(data, ks.cacheKey), db2)
  }

  /** `write`: an empty page is never cached; otherwise the page's id list
      goes into the feed's index, then the posts under the page key. */
  function Write(fl: Flags, db: Db, posts: seq<Post>, username: Option<string>, isPrivate: Option<bool>,
                 date: Option<string>, limit: Option<int>, fIndex: Fault, fPage: Fault): (db': Db)
    ensures |posts| == 0 ==> db' == db
    ensures var ks := KeysOf(fl, username, isPrivate, date, limit);
            |posts| > 0 && fIndex == Ok && !HoldsDoc(db, ks.queryKey)
            ==> ks.queryKey in db'.data
                && db'.data[ks.queryKey] == Hash(FieldsAt(db, ks.queryKey)[ks.queryDateLimit := IdList(posts)])
    ensures var ks := KeysOf(fl, username, isPrivate, date, limit);
            HoldsDoc(db, ks.queryKey) ==> ks.queryKey in db'.data && db'.data[ks.queryKey] == db.data[ks.queryKey]
    ensures var ks := KeysOf(fl, username, isPrivate, date, limit);
            |posts| > 0 && fIndex == Ok && fPage == Ok
            ==> ks.queryKey in db'.expiry && db'.expiry[ks.queryKey] == Deadline(db)
                && ks.cacheKey in db'.expiry && db'.expiry[ks.cacheKey] == Deadline(db)
    ensures var ks := KeysOf(fl, username, isPrivate, date, limit);
            |posts| > 0 && fIndex != Timeout && fPage == Ok
            ==> ks.cacheKey in db'.data && db'.data[ks.cacheKey] == Doc(posts)
    ensures var ks := KeysOf(fl, username, isPrivate, date, limit);
            forall k :: k != ks.queryKey && k != ks.cacheKey
              ==> ((k in db'.data <==> k in db.data) && (k in db.data ==> db'.data[k] == db.data[k])
                   && (k in db'.expiry <==> k in db.expiry) && (k in db.expiry ==> db'.expiry[k] == db.expiry[k]))
    ensures db'.now == db.now
    ensures Valid(db) ==> Valid(db')
    ensures |posts| > 0 && fIndex == Timeout ==> db' == db
    ensures fIndex != Ok ==> Untouched(db, db', KeysOf(fl, username, isPrivate, date, limit).queryKey)
    ensures fPage != Ok ==> Untouched(db, db', KeysOf(fl, username, isPrivate, date, limit).cacheKey)
  {
    if |posts| == 0 then db
    else
      var ks := KeysOf(fl, username, isPrivate, date, limit);
      var (db1, settled) := HSet(db, ks.queryKey, ks.queryDateLimit, IdList(posts), fIndex);
      if settled then SetDoc(db1, ks.cacheKey, posts, fPage).0 else db1
  }

  /** Documents sit exactly at the keys that carry the reserved character,
      hashes everywhere else. `write` keeps this (`WriteKeepsTyped`), and so
      does every change that only shrinks the store (`ShrinksKeepTyped`):
      `newPostCreated` (`NewPostKeepsTyped`) and `resetCache`. */
  predicate Typed(c: char, db: Db) {
    forall k :: k in db.data ==> (db.data[k].Doc? <==> c in k)
  }

  lemma WriteKeepsTyped(fl: Flags, c: char, db: Db, posts: seq<Post>, username: Option<string>,
                        isPrivate: Option<bool>, date: Option<string>, limit: Option<int>, fIndex: Fault, fPage: Fault)
    requires Reserved(fl, c) && Clear(username, c) && Typed(c, db)
    ensures Typed(c, Write(fl, db, posts, username, isPrivate, date, limit, fIndex, fPage))
  {
    var ks := KeysOf(fl, username, isPrivate, date, limit);
    FeedKeyClear(fl, c, username, isPrivate);
    PageKeyMarked(fl, c, ks.queryKey, ks.queryDateLimit);
  }

  /** Round trip: a page written with no failures reads back exactly, in
      order, with the page key as ETag, as long as fewer than DEFAULT_EXPIRE
      seconds have passed; from then on the read is a miss. The only demand
      on the store is that no post list sits at the feed key. */
  lemma WriteThenRead(fl: Flags, db: Db, posts: seq<Post>, username: Option<string>,
                      isPrivate: Option<bool>, date: Option<string>, limit: Option<int>, dt: nat)
    requires |posts| > 0 && !HoldsDoc(db, KeysOf(fl, username, isPrivate, date, limit).queryKey)
    ensures var ks := KeysOf(fl, username, isPrivate, date, limit);
            var db1 := Advance(Write(fl, db, posts, username, isPrivate, date, limit, Ok, Ok), dt);
            Read(fl, db1, username, isPrivate, date, limit, Ok, Ok).0
              == Page(if dt < Consts.DEFAULT_EXPIRE then posts else [], ks.cacheKey)
  {
    var ks := KeysOf(fl, username, isPrivate, date, limit);
    var db0 := Write(fl, db, posts, username, isPrivate, date, limit, Ok, Ok);
    var (db1, _) := HSet(db, ks.queryKey, ks.queryDateLimit, IdList(posts), Ok);
    assert db0 == SetDoc(db1, ks.cacheKey, posts, Ok).0;
    assert db0.expiry[ks.queryKey] == Deadline(db);
    assert db0.expiry[ks.cacheKey] == Deadline(db);
  }

  /** Writing the same page twice leaves the store as writing it once. */
  lemma WriteIdempotent(fl: Flags, db: Db, posts: seq<Post>, username: Option<string>,
                        isPrivate: Option<bool>, date: Option<string>, limit: Option<int>)
    ensures var db1 := Write(fl, db, posts, username, isPrivate, date, limit, Ok, Ok);
            Write(fl, db1, posts, username, isPrivate, date, limit, Ok, Ok) == db1
  {
    if |posts| > 0 {
      var ks := KeysOf(fl, username, isPrivate, date, limit);
      StoreTwiceIdempotent(db, ks.queryKey, ks.queryDateLimit, IdList(posts), ks.cacheKey, posts);
    }
  }

  /** The two store calls of one write, repeated, change nothing more. */
  lemma StoreTwiceIdempotent(db: Db, key: string, field: string, text: string, pageKey: string, posts: seq<Post>)
    requires key != pageKey
    ensures var db1 := SetDoc(HSet(db, key, field, text, Ok).0, pageKey, posts, Ok).0;
            SetDoc(HSet(db1, key, field, text, Ok).0, pageKey, posts, Ok).0 == db1
  {
    var db1 := SetDoc(HSet(db, key, field, text, Ok).0, pageKey, posts, Ok).0;
    if !HoldsDoc(db1, key) {
      assert !HoldsDoc(db, key);
    }
    HSetAgain(db1, key, field, text);
    SetDocAgain(db1, pageKey, posts);
  }

  lemma HSetAgain(db: Db, key: string, field: string, text: string)
    requires key in db.expiry && db.expiry[key] == Deadline(db)
    requires HoldsDoc(db, key) || (key in db.data && field in FieldsAt(db, key) && FieldsAt(db, key)[field] == text)
    ensures HSet(db, key, field, text, Ok).0 == db
  {
    if !HoldsDoc(db, key) {
      var m := FieldsAt(db, key);
      assert m[field := text] == m;
      assert db.data[key := Hash(m)] == db.data;
    }
  }

  lemma SetDocAgain(db: Db, key: string, posts: seq<Post>)
    requires key in db.data && db.data[key] == Doc(posts)
    requires key in db.expiry && db.expiry[key] == Deadline(db)
    ensures SetDoc(db, key, posts, Ok).0 == db
  {
    assert db.data[key := Doc(posts)] == db.data;
    assert (db.expiry - {key})[key := Deadline(db)] == db.expiry;
  }

  /** The index entries of `snapshot` whose id list mentions `postId`. */
  function Hits(snapshot: map<string, string>, postId: string): (hs: set<string>)
    ensures forall f :: f in hs <==> f in snapshot && Strings.Includes(snapshot[f], postId)
  {
    set f | f in snapshot && Strings.Includes(snapshot[f], postId)
  }

  /** Page keys of the given index entries of one feed. */
  function PagesOf(fl: Flags, feed: string, fields: set<string>): (pages: set<string>) {
    set f | f in fields :: PageKey(fl, feed, f)
  }

  /** `resetHelper`: walks a snapshot of one feed's index, deletes each entry
      whose id list mentions the post from the live hash, and returns the
      page keys of exactly those entries. */
  method ResetHelper(fl: Flags, db: Db, snapshot: map<string, string>, queryKey: string, postId: string)
    returns (db': Db, fullKeys: seq<string>)
    ensures db' == HDelFields(db, queryKey, Hits(snapshot, postId))
    ensures Elems(fullKeys) == PagesOf(fl, queryKey, Hits(snapshot, postId))
  {
    var hits := Hits(snapshot, postId);
    db' := db;
    fullKeys := [];
    var todo := snapshot.Keys;
    ghost var done: set<string> := {};
    assert hits * done == {};
    while todo != {}
      invariant todo !! done && todo + done == snapshot.Keys
      invariant db' == HDelFields(db, queryKey, hits * done)
      invariant Elems(fullKeys) == PagesOf(fl, queryKey, hits * done)
      decreases todo
    {
      var f :| f in todo;
      if Strings.Includes(snapshot[f], postId) {
        HDelExtends(db, queryKey, hits * done, f);
        assert hits * (done + {f}) == hits * done + {f};
        var p := PageKey(fl, queryKey, f);
        assert PagesOf(fl, queryKey, hits * done + {f}) == PagesOf(fl, queryKey, hits * done) + {p};
        assert Elems(fullKeys + [p]) == Elems(fullKeys) + {p};
        db' := HDel(db', queryKey, f, Ok);
        fullKeys := fullKeys + [p];
      } else {
        assert hits * (done + {f}) == hits * done;
      }
      todo := todo - {f};
      done := done + {f};
    }
    assert hits * done == hits;
  }

  /** `db'` is `db` with keys dropped and hashes thinned, nothing added or rewritten. */
  predicate Shrinks(db: Db, db': Db) {
    forall k :: k in db'.data ==>
      k in db.data
      && (db'.data[k] == db.data[k]
          || (db.data[k].Hash? && db'.data[k].Hash? && db'.data[k].fields.Items <= db.data[k].fields.Items))
  }

  lemma ShrinksTrans(d1: Db, d2: Db, d3: Db)
    requires Shrinks(d1, d2) && Shrinks(d2, d3)
    ensures Shrinks(d1, d3)
  {
  }

  lemma HDelFieldsShrinks(db: Db, key: string, fields: set<string>)
    ensures Shrinks(db, HDelFields(db, key, fields))
  {
    var db' := HDelFields(db, key, fields);
    if key in db'.data && db'.data[key] != db.data[key] {
      assert db'.data[key].fields.Items <= FieldsAt(db, key).Items;
    }
  }

  /** Thinning the store never breaks the typing of keys. */
  lemma ShrinksKeepTyped(c: char, db: Db, db': Db)
    requires Typed(c, db) && Shrinks(db, db')
    ensures Typed(c, db')
  {
  }

  /** The fields of a post that `resetCache` reads; each may be missing. */
  datatype PostRef = PostRef(id: Option<string>, username: Option<string>, isPrivate: Option<bool>)

  /** The outcome of each backend call `resetCache` makes: the three index
      scans and the final delete. */
  datatype ResetFaults = ResetFaults(pr: Fault, pu: Fault, h: Fault, del: Fault)

  const AllOk := ResetFaults(Ok, Ok, Ok, Ok)

  /** The three index keys `resetCache` scans, in order: the author's private
      feed, the author's public feed, and the global public feed, or the
      empty key in its place when the post is private. */
  function ScannedFeeds(fl: Flags, post: PostRef): (keys: seq<string>) {
    [PrimaryKey(fl, post.username, Some(true)),
     PrimaryKey(fl, post.username, Some(false)),
     if OrFalse(post.isPrivate) then "" else PrimaryKey(fl, Some(""), Some(false))]
  }

  function ScannedSet(fl: Flags, post: PostRef): (feeds: set<string>) {
    var fs := ScannedFeeds(fl, post);
    {fs[0], fs[1], fs[2]}
  }

  /** Which feeds the scan covers: both of the author's feeds always, the
      global public feed exactly when the post is not private. */
  lemma ScannedFeedsScope(fl: Flags, post: PostRef)
    ensures var fs := ScannedFeeds(fl, post);
            var global := PrimaryKey(fl, None, None);
            && fs[0] == PrimaryKey(fl, post.username, Some(true))
            && fs[1] == PrimaryKey(fl, post.username, Some(false))
            && fs[0] != fs[1] && fs[0] != fs[2]
            && (OrFalse(post.isPrivate) <==> fs[2] == "")
            && (!OrFalse(post.isPrivate) <==> global in fs[2..])
            && (OrFalse(post.isPrivate) && Given(post.username) ==> global !in fs)
  {
    var global := PrimaryKey(fl, None, None);
    PrimaryKeyInjective(fl, post.username, Some(true), post.username, Some(false));
    PrimaryKeyInjective(fl, post.username, Some(true), Some(""), Some(false));
    PrimaryKeyInjective(fl, post.username, Some(false), None, None);
    PrimaryKeyInjective(fl, post.username, Some(true), None, None);
    PrimaryKeyInjective(fl, Some(""), Some(false), None, None);
  }

  /** Page keys of every indexed page, among `feeds`, whose id list mentions `id`. */
  function HitPages(fl: Flags, db: Db, feeds: set<string>, id: string): (hp: set<string>) {
    set feed, f | feed in feeds && f in Hits(FieldsAt(db, feed), id) :: PageKey(fl, feed, f)
  }

  /** Reference for a complete reset of `feeds` for post `id`: every hit page
      is gone, each scanned index lost exactly its hit entries, and every
      other key is as it was, deadline included. */
  predicate Invalidated(fl: Flags, db: Db, db': Db, feeds: set<string>, id: string) {
    ValuesInvalidated(fl, db, db', feeds, id) && DeadlinesOutside(db, db', feeds)
  }

  /** The stored values after a complete reset. */
  predicate ValuesInvalidated(fl: Flags, db: Db, db': Db, feeds: set<string>, id: string) {
    var hp := HitPages(fl, db, feeds, id);
    Shrinks(db, db') && PagesGone(hp, db') && FeedsThinned(db, db', feeds, hp, id) && OthersKept(db, db', feeds + hp)
  }

  /** Every live key outside `feeds` kept its deadline. */
  predicate DeadlinesOutside(db: Db, db': Db, feeds: set<string>) {
    forall k :: k in db'.data && k !in feeds ==> SameDeadline(db, db', k)
  }

  predicate PagesGone(pages: set<string>, db': Db) {
    forall k :: k in pages ==> k !in db'.data
  }

  predicate FeedsThinned(db: Db, db': Db, feeds: set<string>, pages: set<string>, id: string) {
    forall feed :: feed in feeds && feed !in pages
      ==> FieldsAt(db', feed) == FieldsAt(db, feed) - Hits(FieldsAt(db, feed), id)
  }

  predicate OthersKept(db: Db, db': Db, touched: set<string>) {
    forall k :: k in db.data && k !in touched ==> k in db'.data && db'.data[k] == db.data[k]
  }

  /** `resetCache`: nothing happens for a post without an id; otherwise the
      three index hashes are read, each is thinned by `ResetHelper`, and the
      page keys found are deleted. A scan that times out yields `null`, on
      which the next helper throws, so the rest of the chain is skipped. */
  method ResetCache(fl: Flags, db: Db, post: PostRef, fs: ResetFaults) returns (db': Db)
    ensures !Given(post.id) ==> db' == db
    ensures Shrinks(db, db') && db'.now == db.now
    ensures Valid(db) ==> Valid(db')
    ensures DeadlinesOutside(db, db', ScannedSet(fl, post))
    ensures Given(post.id)
            ==> OthersKept(db, db', ScannedSet(fl, post) + HitPages(fl, db, ScannedSet(fl, post), post.id.value))
    ensures Given(post.id) && (fs.pr == Timeout || fs.pu == Timeout || fs.h == Timeout || fs.del != Ok)
            ==> OthersKept(db, db', ScannedSet(fl, post))
    ensures Given(post.id) && fs == AllOk
            ==> Invalidated(fl, db, db', ScannedSet(fl, post), post.id.value)
    ensures Given(post.id) && fs == AllOk
            ==> forall feed :: feed in ScannedSet(fl, post) && feed in db'.data && HashAt(db, feed)
                  ==> feed in db'.expiry && db'.expiry[feed] == Deadline(db)
  {
    if !Given(post.id) {
      return db;
    }
    var keys := ScannedFeeds(fl, post);
    var feeds := ScannedSet(fl, post);
    ScannedDistinct(fl, post);
    var d0, maps := ScanThree(db, keys, fs);
    db' := ScanAndDelete(fl, db, d0, keys, feeds, maps, post.id.value, fs.del);
    if fs == AllOk {
      RefreshSurvives(db, d0, db', keys, feeds);
    }
  }

  /** A scanned hash that survives the rest of the chain keeps the full
      lifetime its scan gave it. */
  lemma RefreshSurvives(db: Db, d0: Db, db': Db, keys: seq<string>, feeds: set<string>)
    requires |keys| == 3 && feeds == {keys[0], keys[1], keys[2]}
    requires HashAt(db, keys[0]) ==> keys[0] in d0.expiry && d0.expiry[keys[0]] == Deadline(db)
    requires HashAt(db, keys[1]) ==> keys[1] in d0.expiry && d0.expiry[keys[1]] == Deadline(db)
    requires HashAt(db, keys[2]) ==> keys[2] in d0.expiry && d0.expiry[keys[2]] == Deadline(db)
    requires DeadlinesKept(d0, db')
    ensures forall feed :: feed in feeds && feed in db'.data && HashAt(db, feed)
              ==> feed in db'.expiry && db'.expiry[feed] == Deadline(db)
  {
    forall feed | feed in feeds && feed in db'.data && HashAt(db, feed)
      ensures feed in db'.expiry && db'.expiry[feed] == Deadline(db)
    {
      assert SameDeadline(d0, db', feed);
    }
  }

  /** The three `getMap` snapshots, in order; a scan that answers reads the
      live index, and none changes the stored values. */
  method ScanThree(db: Db, keys: seq<string>, fs: ResetFaults) returns (d0: Db, maps: seq<Option<map<string, string>>>)
    requires |keys| == 3
    ensures |maps| == 3 && d0.data == db.data && d0.now == db.now
    ensures Valid(db) ==> Valid(d0)
    ensures fs.pr == Ok ==> maps[0] == Some(FieldsAt(db, keys[0]))
    ensures fs.pu == Ok ==> maps[1] == Some(FieldsAt(db, keys[1]))
    ensures fs.h == Ok ==> maps[2] == Some(FieldsAt(db, keys[2]))
    ensures forall k :: k != keys[0] && k != keys[1] && k != keys[2] ==> SameDeadline(db, d0, k)
    ensures fs.pr == Ok && HashAt(db, keys[0]) ==> keys[0] in d0.expiry && d0.expiry[keys[0]] == Deadline(db)
    ensures fs.pu == Ok && HashAt(db, keys[1]) ==> keys[1] in d0.expiry && d0.expiry[keys[1]] == Deadline(db)
    ensures fs.h == Ok && HashAt(db, keys[2]) ==> keys[2] in d0.expiry && d0.expiry[keys[2]] == Deadline(db)
    ensures (fs.pr == Timeout <==> maps[0].None?) && (fs.pu == Timeout <==> maps[1].None?)
            && (fs.h == Timeout <==> maps[2].None?)
    ensures (fs.pr == Error ==> maps[0] == Some(map[])) && (fs.pu == Error ==> maps[1] == Some(map[]))
            && (fs.h == Error ==> maps[2] == Some(map[]))
    ensures maps[0].Some? ==> maps[0].value == FieldsAt(db, keys[0]) || maps[0].value == map[]
    ensures maps[1].Some? ==> maps[1].value == FieldsAt(db, keys[1]) || maps[1].value == map[]
    ensures maps[2].Some? ==> maps[2].value == FieldsAt(db, keys[2]) || maps[2].value == map[]
  {
    var r1 := GetMap(db, keys[0], fs.pr);
    var r2 := GetMap(r1.1, keys[1], fs.pu);
    var r3 := GetMap(r2.1, keys[2], fs.h);
    assert FieldsAt(r1.1, keys[1]) == FieldsAt(db, keys[1]);
    assert FieldsAt(r2.1, keys[2]) == FieldsAt(db, keys[2]);
    ScanDeadlines(db, r1.1, r2.1, r3.1, keys, fs);
    d0, maps := r3.1, [r1.0, r2.0, r3.0];
  }

  /** The three scans keep every other key's deadline, and each answered
      scan of a hash gives it the full lifetime, which later scans keep. */
  lemma ScanDeadlines(db: Db, d1: Db, d2: Db, d3: Db, keys: seq<string>, fs: ResetFaults)
    requires |keys| == 3
    requires d1 == GetMap(db, keys[0], fs.pr).1
    requires d2 == GetMap(d1, keys[1], fs.pu).1
    requires d3 == GetMap(d2, keys[2], fs.h).1
    ensures forall k :: k != keys[0] && k != keys[1] && k != keys[2] ==> SameDeadline(db, d3, k)
    ensures fs.pr == Ok && HashAt(db, keys[0]) ==> keys[0] in d3.expiry && d3.expiry[keys[0]] == Deadline(db)
    ensures fs.pu == Ok && HashAt(db, keys[1]) ==> keys[1] in d3.expiry && d3.expiry[keys[1]] == Deadline(db)
    ensures fs.h == Ok && HashAt(db, keys[2]) ==> keys[2] in d3.expiry && d3.expiry[keys[2]] == Deadline(db)
  {
    if fs.pr == Ok && HashAt(db, keys[0]) {
      GetMapKeepsDeadline(d1, keys[1], fs.pu, keys[0]);
      GetMapKeepsDeadline(d2, keys[2], fs.h, keys[0]);
    }
    if fs.pu == Ok && HashAt(db, keys[1]) {
      GetMapKeepsDeadline(d2, keys[2], fs.h, keys[1]);
    }
  }

  /** The scanned keys as a set, and the distinctness the helpers rely on. */
  lemma ScannedDistinct(fl: Flags, post: PostRef)
    ensures var fs := ScannedFeeds(fl, post);
            fs[0] != fs[1] && fs[0] != fs[2] && ScannedSet(fl, post) == {fs[0], fs[1], fs[2]}
  {
    ScannedFeedsScope(fl, post);
  }

  /** The part of `resetCache` after the scans: one helper per snapshot, in
      order, stopping at the first missing one, then one delete. */
  method ScanAndDelete(fl: Flags, db: Db, d0: Db, keys: seq<string>, feeds: set<string>,
                       maps: seq<Option<map<string, string>>>, id: string, fDel: Fault) returns (db': Db)
    requires |keys| == 3 && |maps| == 3 && d0.data == db.data && d0.now == db.now
    requires feeds == {keys[0], keys[1], keys[2]}
    requires keys[0] != keys[1] && keys[0] != keys[2]
    requires forall k :: k != keys[0] && k != keys[1] && k != keys[2] ==> SameDeadline(db, d0, k)
    requires maps[0].Some? ==> maps[0].value == FieldsAt(db, keys[0]) || maps[0].value == map[]
    requires maps[1].Some? ==> maps[1].value == FieldsAt(db, keys[1]) || maps[1].value == map[]
    requires maps[2].Some? ==> maps[2].value == FieldsAt(db, keys[2]) || maps[2].value == map[]
    ensures Shrinks(db, db') && db'.now == db.now
    ensures DeadlinesKept(d0, db') && DeadlinesOutside(db, db', feeds)
    ensures Valid(d0) ==> Valid(db')
    ensures OthersKept(db, db', feeds + HitPages(fl, db, feeds, id))
    ensures maps[0].None? || maps[1].None? || maps[2].None? || fDel != Ok ==> OthersKept(db, db', feeds)
    ensures fDel == Ok && maps[0] == Some(FieldsAt(db, keys[0])) && maps[1] == Some(FieldsAt(db, keys[1]))
            && maps[2] == Some(FieldsAt(db, keys[2]))
            ==> Invalidated(fl, db, db', feeds, id)
  {
    db' := d0;
    if maps[0].None? {
      DeadlinesFromScan(db, d0, db', keys, feeds);
      return;
    }
    var d1, k1 := ResetHelper(fl, d0, maps[0].value, keys[0], id);
    HDelFieldsShrinks(d0, keys[0], Hits(maps[0].value, id));
    db' := d1;
    if maps[1].None? {
      DeadlinesFromScan(db, d0, db', keys, feeds);
      return;
    }
    var d2, k2 := ResetHelper(fl, d1, maps[1].value, keys[1], id);
    HDelFieldsShrinks(d1, keys[1], Hits(maps[1].value, id));
    ShrinksTrans(db, d1, d2);
    DeadlinesKeptTrans(d0, d1, d2);
    db' := d2;
    if maps[2].None? {
      DeadlinesFromScan(db, d0, db', keys, feeds);
      return;
    }
    var d3, k3 := ResetHelper(fl, d2, maps[2].value, keys[2], id);
    HDelFieldsShrinks(d2, keys[2], Hits(maps[2].value, id));
    ShrinksTrans(db, d2, d3);
    DeadlinesKeptTrans(d0, d2, d3);
    db' := Del(d3, k1 + k2 + k3, fDel);
    var hp := HitPages(fl, db, feeds, id);
    SnapshotPagesHit(fl, db, feeds, keys[0], maps[0].value, id, k1);
    SnapshotPagesHit(fl, db, feeds, keys[1], maps[1].value, id, k2);
    SnapshotPagesHit(fl, db, feeds, keys[2], maps[2].value, id, k3);
    TargetedDeletes(db, d3, db', feeds, hp, k1, k2, k3, fDel);
    ShrinksTrans(db, d3, db');
    DeadlinesKeptTrans(d0, d3, db');
    DeadlinesFromScan(db, d0, db', keys, feeds);
    if fDel == Ok && maps[0] == Some(FieldsAt(db, keys[0])) && maps[1] == Some(FieldsAt(db, keys[1]))
       && maps[2] == Some(FieldsAt(db, keys[2])) {
      ScansComplete(fl, db, d0, d1, d2, d3, db', keys[0], keys[1], keys[2], feeds, id, k1, k2, k3);
    }
  }

  /** The pages a helper collects from a snapshot that is either the live
      index or empty are hit pages of the scanned feeds. */
  lemma SnapshotPagesHit(fl: Flags, db: Db, feeds: set<string>, feed: string, snapshot: map<string, string>,
                         id: string, ks: seq<string>)
    requires feed in feeds
    requires snapshot == FieldsAt(db, feed) || snapshot == map[]
    requires Elems(ks) == PagesOf(fl, feed, Hits(snapshot, id))
    ensures Elems(ks) <= HitPages(fl, db, feeds, id)
  {
    forall k | k in Elems(ks) ensures k in HitPages(fl, db, feeds, id) {
      var f :| f in Hits(snapshot, id) && k == PageKey(fl, feed, f);
      assert f in Hits(FieldsAt(db, feed), id);
    }
  }

  /** The final `del` removes only hit pages, and nothing when it fails, so
      every key outside the scanned feeds and their hit pages keeps its value. */
  lemma TargetedDeletes(db: Db, d3: Db, db': Db, feeds: set<string>, hp: set<string>,
                        k1: seq<string>, k2: seq<string>, k3: seq<string>, fDel: Fault)
    requires Elems(k1) <= hp && Elems(k2) <= hp && Elems(k3) <= hp
    requires OthersKept(db, d3, feeds)
    requires db' == Del(d3, k1 + k2 + k3, fDel)
    ensures OthersKept(db, db', feeds + hp)
    ensures fDel != Ok ==> OthersKept(db, db', feeds)
  {
    forall k | k in db.data && k !in feeds + hp ensures k in db'.data && db'.data[k] == db.data[k] {
      assert k !in Elems(k1) && k !in Elems(k2) && k !in Elems(k3);
    }
  }

  /** Deadlines outside the scanned feeds survive the scans and the rest of the chain. */
  lemma DeadlinesFromScan(db: Db, d0: Db, db': Db, keys: seq<string>, feeds: set<string>)
    requires |keys| == 3 && feeds == {keys[0], keys[1], keys[2]}
    requires forall k :: k != keys[0] && k != keys[1] && k != keys[2] ==> SameDeadline(db, d0, k)
    requires DeadlinesKept(d0, db')
    ensures DeadlinesOutside(db, db', feeds)
  {
    forall k | k in db'.data && k !in feeds ensures SameDeadline(db, db', k) {
      assert k != keys[0] && k != keys[1] && k != keys[2];
      assert SameDeadline(db, d0, k) && SameDeadline(d0, db', k);
    }
  }

  /** The three helpers ran on current snapshots and the delete succeeded:
      the store is invalidated for the three scanned feeds. */
  lemma ScansComplete(fl: Flags, db: Db, d0: Db, d1: Db, d2: Db, d3: Db, db': Db, pr: string, pu: string, h: string,
                      feeds: set<string>, id: string, k1: seq<string>, k2: seq<string>, k3: seq<string>)
    requires d0.data == db.data && pr != pu && pr != h && feeds == {pr, pu, h}
    requires d1 == HDelFields(d0, pr, Hits(FieldsAt(db, pr), id))
    requires d2 == HDelFields(d1, pu, Hits(FieldsAt(db, pu), id))
    requires d3 == HDelFields(d2, h, Hits(FieldsAt(db, h), id))
    requires Elems(k1) == PagesOf(fl, pr, Hits(FieldsAt(db, pr), id))
    requires Elems(k2) == PagesOf(fl, pu, Hits(FieldsAt(db, pu), id))
    requires Elems(k3) == PagesOf(fl, h, Hits(FieldsAt(db, h), id))
    requires db' == Del(d3, k1 + k2 + k3, Ok) && Shrinks(db, db')
    ensures ValuesInvalidated(fl, db, db', feeds, id)
  {
    DeletedAreHits(fl, db, pr, pu, h, id, k1, k2, k3);
    ThinnedScans(db, d0, d1, d2, d3, pr, pu, h, feeds, id);
    ThreeScansInvalidate(fl, db, d3, db', feeds, id, k1 + k2 + k3);
  }

  /** The three helpers, as one step: each scanned index lost its hit
      entries, and every other key is as it was. */
  lemma ThinnedScans(db: Db, d0: Db, d1: Db, d2: Db, d3: Db, pr: string, pu: string, h: string,
                     feeds: set<string>, id: string)
    requires d0.data == db.data && pr != pu && pr != h && feeds == {pr, pu, h}
    requires d1 == HDelFields(d0, pr, Hits(FieldsAt(db, pr), id))
    requires d2 == HDelFields(d1, pu, Hits(FieldsAt(db, pu), id))
    requires d3 == HDelFields(d2, h, Hits(FieldsAt(db, h), id))
    ensures forall feed :: feed in feeds ==> FieldsAt(d3, feed) == FieldsAt(db, feed) - Hits(FieldsAt(db, feed), id)
    ensures forall k :: k !in feeds ==> (k in d3.data <==> k in db.data)
    ensures forall k :: k !in feeds && k in db.data ==> d3.data[k] == db.data[k]
  {
    var h1, h2, h3 := Hits(FieldsAt(db, pr), id), Hits(FieldsAt(db, pu), id), Hits(FieldsAt(db, h), id);
    ThinnedFeeds(db, d0, d1, d2, d3, pr, pu, h, h1, h2, h3);
    ThinnedPerFeed(db, d3, pr, pu, h, feeds, id, h1, h2, h3);
  }

  lemma ThinnedPerFeed(db: Db, d3: Db, pr: string, pu: string, h: string, feeds: set<string>, id: string,
                       h1: set<string>, h2: set<string>, h3: set<string>)
    requires feeds == {pr, pu, h}
    requires h1 == Hits(FieldsAt(db, pr), id) && h2 == Hits(FieldsAt(db, pu), id) && h3 == Hits(FieldsAt(db, h), id)
    requires FieldsAt(d3, pr) == FieldsAt(db, pr) - h1
    requires FieldsAt(d3, pu) == FieldsAt(db, pu) - h2
    requires FieldsAt(d3, h) == FieldsAt(db, h) - h3
    ensures forall feed :: feed in feeds ==> FieldsAt(d3, feed) == FieldsAt(db, feed) - Hits(FieldsAt(db, feed), id)
  {
  }

  /** Deleting exactly the hit pages from the thinned store completes the reset. */
  lemma ThreeScansInvalidate(fl: Flags, db: Db, d3: Db, db': Db, feeds: set<string>, id: string, ks: seq<string>)
    requires Elems(ks) == HitPages(fl, db, feeds, id)
    requires forall feed :: feed in feeds ==> FieldsAt(d3, feed) == FieldsAt(db, feed) - Hits(FieldsAt(db, feed), id)
    requires forall k :: k !in feeds ==> (k in d3.data <==> k in db.data)
    requires forall k :: k !in feeds && k in db.data ==> d3.data[k] == db.data[k]
    requires db' == Del(d3, ks, Ok)
    requires Shrinks(db, db')
    ensures ValuesInvalidated(fl, db, db', feeds, id)
  {
    var hp := HitPages(fl, db, feeds, id);
    assert db'.data.Keys == d3.data.Keys - hp;
    forall feed | feed in feeds && feed !in hp
      ensures FieldsAt(db', feed) == FieldsAt(db, feed) - Hits(FieldsAt(db, feed), id)
    {
      assert FieldsAt(db', feed) == FieldsAt(d3, feed);
    }
  }

  /** The page keys the three helpers return are exactly the hit pages. */
  lemma DeletedAreHits(fl: Flags, db: Db, pr: string, pu: string, h: string,
                       id: string, k1: seq<string>, k2: seq<string>, k3: seq<string>)
    requires Elems(k1) == PagesOf(fl, pr, Hits(FieldsAt(db, pr), id))
    requires Elems(k2) == PagesOf(fl, pu, Hits(FieldsAt(db, pu), id))
    requires Elems(k3) == PagesOf(fl, h, Hits(FieldsAt(db, h), id))
    ensures Elems(k1 + k2 + k3) == HitPages(fl, db, {pr, pu, h}, id)
  {
    var hp := HitPages(fl, db, {pr, pu, h}, id);
    forall k | k in k1 + k2 + k3 ensures k in hp {
      var feed := if k in k1 then pr else if k in k2 then pu else h;
      assert k in Elems(if k in k1 then k1 else if k in k2 then k2 else k3);
      var f :| f in Hits(FieldsAt(db, feed), id) && k == PageKey(fl, feed, f);
      assert feed in {pr, pu, h};
    }
    forall k | k in hp ensures k in k1 + k2 + k3 {
      var feed, f :| feed in {pr, pu, h} && f in Hits(FieldsAt(db, feed), id) && k == PageKey(fl, feed, f);
      if feed == pr {
        assert k in PagesOf(fl, pr, Hits(FieldsAt(db, pr), id));
        assert k in Elems(k1);
      } else if feed == pu {
        assert k in PagesOf(fl, pu, Hits(FieldsAt(db, pu), id));
        assert k in Elems(k2);
      } else {
        assert k in PagesOf(fl, h, Hits(FieldsAt(db, h), id));
        assert k in Elems(k3);
      }
    }
  }

  /** After the three helpers, each scanned index lost its hit entries and
      every other key is untouched. */
  lemma ThinnedFeeds(db: Db, d0: Db, da: Db, d2: Db, d3: Db, pr: string, pu: string, h: string,
                     h1: set<string>, h2: set<string>, h3: set<string>)
    requires d0.data == db.data && pr != pu && pr != h && (pu == h ==> h2 == h3)
    requires da == HDelFields(d0, pr, h1)
    requires d2 == HDelFields(da, pu, h2)
    requires d3 == HDelFields(d2, h, h3)
    ensures FieldsAt(d3, pr) == FieldsAt(db, pr) - h1
    ensures FieldsAt(d3, pu) == FieldsAt(db, pu) - h2
    ensures FieldsAt(d3, h) == FieldsAt(db, h) - h3
    ensures forall k :: k != pr && k != pu && k != h ==> (k in d3.data <==> k in db.data)
    ensures forall k :: k != pr && k != pu && k != h && k in db.data ==> d3.data[k] == db.data[k]
  {
    HDelFieldsElsewhere(da, pu, h2, pr);
    HDelFieldsElsewhere(d2, h, h3, pr);
    HDelFieldsElsewhere(d0, pr, h1, pu);
    HDelFieldsElsewhere(d0, pr, h1, h);
    if pu == h {
      var m := FieldsAt(db, pu);
      assert (m - h2) - h3 == m - h2;
    } else {
      HDelFieldsElsewhere(d2, h, h3, pu);
      HDelFieldsElsewhere(da, pu, h2, h);
    }
  }

  /** After a complete reset, a page whose index entry mentions the post is a
      miss, whatever payload is still stored under its page key. */
  lemma ResetPageMisses(fl: Flags, db: Db, db': Db, feeds: set<string>, id: string, username: Option<string>,
                        isPrivate: Option<bool>, date: Option<string>, limit: Option<int>, fGet: Fault)
    requires Invalidated(fl, db, db', feeds, id)
    requires var ks := KeysOf(fl, username, isPrivate, date, limit);
             && ks.queryKey in feeds
             && ks.queryDateLimit in FieldsAt(db, ks.queryKey)
             && Strings.Includes(FieldsAt(db, ks.queryKey)[ks.queryDateLimit], id)
    ensures Read(fl, db', username, isPrivate, date, limit, Ok, fGet).0.data == []
  {
    var ks := KeysOf(fl, username, isPrivate, date, limit);
    var hp := HitPages(fl, db, feeds, id);
    assert ks.queryDateLimit in Hits(FieldsAt(db, ks.queryKey), id);
    if ks.queryKey in hp {
      assert FieldsAt(db', ks.queryKey) == map[];
    }
    assert !Indexed(db', ks);
  }

  /** Under the key-separation assumption, a reset leaves every other page
      reading exactly as before: pages of scanned feeds whose entry does not
      mention the post, and every page of a feed that was not scanned. */
  lemma ResetKeepsOtherPages(fl: Flags, c: char, db: Db, db': Db, feeds: set<string>, id: string,
                             username: Option<string>, isPrivate: Option<bool>, date: Option<string>,
                             limit: Option<int>, fMap: Fault, fGet: Fault)
    requires Invalidated(fl, db, db', feeds, id)
    requires Reserved(fl, c) && Clear(username, c) && (forall feed :: feed in feeds ==> c !in feed)
    requires var ks := KeysOf(fl, username, isPrivate, date, limit);
             ks.queryKey in feeds && ks.queryDateLimit in FieldsAt(db, ks.queryKey)
             ==> !Strings.Includes(FieldsAt(db, ks.queryKey)[ks.queryDateLimit], id)
    ensures Read(fl, db', username, isPrivate, date, limit, fMap, fGet).0
            == Read(fl, db, username, isPrivate, date, limit, fMap, fGet).0
  {
    var ks := KeysOf(fl, username, isPrivate, date, limit);
    var feed0, desc, page := ks.queryKey, ks.queryDateLimit, ks.cacheKey;
    FeedKeyClear(fl, c, username, isPrivate);
    PageKeyMarked(fl, c, feed0, desc);
    HitPagesMarked(fl, c, db, feeds, id, feed0);
    PageNotHit(fl, c, db, feeds, id, feed0, desc);
    InvalidatedKeeps(fl, db, db', feeds, id, page);
    EntryKept(fl, db, db', feeds, id, feed0, desc);
    ReadSeesIndexAndPage(fl, db, db', username, isPrivate, date, limit, fMap, fGet);
  }

  /** Every hit page key carries the reserved character, so no feed key is one. */
  lemma HitPagesMarked(fl: Flags, c: char, db: Db, feeds: set<string>, id: string, k: string)
    requires Reserved(fl, c) && c !in k
    ensures k !in HitPages(fl, db, feeds, id)
  {
    forall k' | k' in HitPages(fl, db, feeds, id) ensures c in k' {
      var feed, f :| feed in feeds && f in Hits(FieldsAt(db, feed), id) && k' == PageKey(fl, feed, f);
      PageKeyMarked(fl, c, feed, f);
    }
  }

  /** A page whose entry is absent or does not mention the post is no hit page. */
  lemma PageNotHit(fl: Flags, c: char, db: Db, feeds: set<string>, id: string, feed0: string, desc: string)
    requires Reserved(fl, c) && c !in feed0 && (forall feed :: feed in feeds ==> c !in feed)
    requires feed0 in feeds && desc in FieldsAt(db, feed0) ==> !Strings.Includes(FieldsAt(db, feed0)[desc], id)
    ensures PageKey(fl, feed0, desc) !in HitPages(fl, db, feeds, id)
  {
    if PageKey(fl, feed0, desc) in HitPages(fl, db, feeds, id) {
      var feed, f :| feed in feeds && f in Hits(FieldsAt(db, feed), id) && PageKey(fl, feed0, desc) == PageKey(fl, feed, f);
      PageKeyInjective(fl, c, feed, f, feed0, desc);
    }
  }

  /** A key neither scanned nor hit survives a reset unchanged. */
  lemma InvalidatedKeeps(fl: Flags, db: Db, db': Db, feeds: set<string>, id: string, k: string)
    requires Invalidated(fl, db, db', feeds, id)
    requires k !in feeds && k !in HitPages(fl, db, feeds, id)
    ensures (k in db'.data <==> k in db.data) && (k in db.data ==> db'.data[k] == db.data[k])
  {
  }

  /** An index entry that does not mention the post survives a reset. */
  lemma EntryKept(fl: Flags, db: Db, db': Db, feeds: set<string>, id: string, feed0: string, desc: string)
    requires Invalidated(fl, db, db', feeds, id)
    requires feed0 !in HitPages(fl, db, feeds, id)
    requires feed0 in feeds && desc in FieldsAt(db, feed0) ==> !Strings.Includes(FieldsAt(db, feed0)[desc], id)
    ensures desc in FieldsAt(db', feed0) <==> desc in FieldsAt(db, feed0)
    ensures desc in FieldsAt(db, feed0) ==> FieldsAt(db', feed0)[desc] == FieldsAt(db, feed0)[desc]
  {
    var hp := HitPages(fl, db, feeds, id);
    if feed0 in feeds {
      assert FieldsAt(db', feed0) == FieldsAt(db, feed0) - Hits(FieldsAt(db, feed0), id);
    } else {
      InvalidatedKeeps(fl, db, db', feeds, id, feed0);
    }
  }

  /** The feed indexes a newly created post invalidates: the author's private
      feed, and for a public post also the author's public feed and the global
      public feed. */
  function CreatedScope(fl: Flags, post: Post): (scope: set<string>) {
    var own := PrimaryKey(fl, Some(post.username), Some(true));
    if post.isPrivate then {own}
    else {own, PrimaryKey(fl, Some(post.username), Some(false)), PrimaryKey(fl, Some(""), Some(false))}
  }

  /** `newPostCreated`: deletes the index hashes of every feed whose first
      page may now include the post, and no other key. The page payloads of
      those feeds stay until they expire, but no index entry leads to them. */
  function NewPostCreated(fl: Flags, db: Db, post: Post, f: Fault): (db': Db)
    ensures f == Ok ==> db'.data.Keys == db.data.Keys - CreatedScope(fl, post)
    ensures f != Ok ==> db' == db
    ensures forall k :: k in db'.data ==> db'.data[k] == db.data[k]
    ensures DeadlinesKept(db, db')
    ensures Shrinks(db, db') && db'.now == db.now
    ensures Valid(db) ==> Valid(db')
  {
    var privateQUser := PrimaryKey(fl, Some(post.username), Some(post.isPrivate));
    var toDelete :=
      if !post.isPrivate then
        [privateQUser, PrimaryKey(fl, Some(post.username), Some(true)), PrimaryKey(fl, Some(""), Some(false))]
      else [privateQUser];
    assert Elems(toDelete) == CreatedScope(fl, post);
    Del(db, toDelete, f)
  }

  /** Deleting feed indexes keeps documents at exactly the marked keys. */
  lemma NewPostKeepsTyped(fl: Flags, c: char, db: Db, post: Post, f: Fault)
    requires Typed(c, db)
    ensures Typed(c, NewPostCreated(fl, db, post, f))
  {
    ShrinksKeepTyped(c, db, NewPostCreated(fl, db, post, f));
  }

  /** A private post touches only its author's private feed; a public post
      by a named author touches three distinct feeds. */
  lemma CreatedScopeShape(fl: Flags, post: Post)
    ensures post.isPrivate ==> PrimaryKey(fl, Some(post.username), Some(false)) !in CreatedScope(fl, post)
    ensures post.isPrivate ==> PrimaryKey(fl, Some(""), Some(false)) !in CreatedScope(fl, post)
    ensures !post.isPrivate && post.username != "" ==> |CreatedScope(fl, post)| == 3
  {
    var u := Some(post.username);
    PrimaryKeyInjective(fl, u, Some(true), u, Some(false));
    PrimaryKeyInjective(fl, u, Some(true), Some(""), Some(false));
    PrimaryKeyInjective(fl, u, Some(false), Some(""), Some(false));
  }

  /** Every page of a wiped feed reads as a miss afterwards. */
  lemma CreatedFeedMisses(fl: Flags, db: Db, post: Post, username: Option<string>, isPrivate: Option<bool>,
                          date: Option<string>, limit: Option<int>, fMap: Fault, fGet: Fault)
    requires PrimaryKey(fl, username, isPrivate) in CreatedScope(fl, post)
    ensures Read(fl, NewPostCreated(fl, db, post, Ok), username, isPrivate, date, limit, fMap, fGet).0.data == []
  {
    var ks := KeysOf(fl, username, isPrivate, date, limit);
    assert FieldsAt(NewPostCreated(fl, db, post, Ok), ks.queryKey) == map[];
  }

  /** Under the key-separation assumption, every page of a feed outside the
      scope reads exactly as before. */
  lemma CreatedKeepsOtherFeeds(fl: Flags, c: char, db: Db, post: Post, username: Option<string>,
                               isPrivate: Option<bool>, date: Option<string>, limit: Option<int>,
                               fDel: Fault, fMap: Fault, fGet: Fault)
    requires Reserved(fl, c) && Clear(username, c) && Clear(Some(post.username), c)
    requires PrimaryKey(fl, username, isPrivate) !in CreatedScope(fl, post)
    ensures Read(fl, NewPostCreated(fl, db, post, fDel), username, isPrivate, date, limit, fMap, fGet).0
            == Read(fl, db, username, isPrivate, date, limit, fMap, fGet).0
  {
    var ks := KeysOf(fl, username, isPrivate, date, limit);
    var db' := NewPostCreated(fl, db, post, fDel);
    PageKeyMarked(fl, c, ks.queryKey, ks.queryDateLimit);
    MarkedOutsideScope(fl, c, post, ks.cacheKey);
    CreatedKeepsKey(fl, db, post, fDel, ks.queryKey);
    CreatedKeepsKey(fl, db, post, fDel, ks.cacheKey);
    ReadSeesKeys(fl, db, db', username, isPrivate, date, limit, fMap, fGet);
  }

  /** No key carrying the reserved character is one of the feed indexes a
      new post invalidates. */
  lemma MarkedOutsideScope(fl: Flags, c: char, post: Post, k: string)
    requires Reserved(fl, c) && Clear(Some(post.username), c) && c in k
    ensures k !in CreatedScope(fl, post)
  {
    FeedKeyClear(fl, c, Some(post.username), Some(true));
    FeedKeyClear(fl, c, Some(post.username), Some(false));
    FeedKeyClear(fl, c, Some(""), Some(false));
  }

  /** A key outside the scope keeps its presence and its value. */
  lemma CreatedKeepsKey(fl: Flags, db: Db, post: Post, f: Fault, k: string)
    requires k !in CreatedScope(fl, post)
    ensures var db' := NewPostCreated(fl, db, post, f);
            (k in db'.data <==> k in db.data) && (k in db.data ==> db'.data[k] == db.data[k])
  {
  }

  /** A read depends only on the feed's index key and the page key. */
  lemma ReadSeesKeys(fl: Flags, db: Db, db': Db, username: Option<string>, isPrivate: Option<bool>,
                     date: Option<string>, limit: Option<int>, fMap: Fault, fGet: Fault)
    requires var ks := KeysOf(fl, username, isPrivate, date, limit);
             && (ks.queryKey in db'.data <==> ks.queryKey in db.data)
             && (ks.queryKey in db.data ==> db'.data[ks.queryKey] == db.data[ks.queryKey])
             && (ks.cacheKey in db'.data <==> ks.cacheKey in db.data)
             && (ks.cacheKey in db.data ==> db'.data[ks.cacheKey] == db.data[ks.cacheKey])
    ensures Read(fl, db', username, isPrivate, date, limit, fMap, fGet).0
            == Read(fl, db, username, isPrivate, date, limit, fMap, fGet).0
  {
    var ks := KeysOf(fl, username, isPrivate, date, limit);
    assert FieldsAt(db', ks.queryKey) == FieldsAt(db, ks.queryKey);
    ReadSeesIndexAndPage(fl, db, db', username, isPrivate, date, limit, fMap, fGet);
  }

  /** A read depends only on the page's index entry and the page's payload:
      when both are unchanged the read answers the same. */
  lemma ReadSeesIndexAndPage(fl: Flags, db: Db, db': Db, username: Option<string>, isPrivate: Option<bool>,
                             date: Option<string>, limit: Option<int>, fMap: Fault, fGet: Fault)
    requires var ks := KeysOf(fl, username, isPrivate, date, limit);
             && (ks.queryDateLimit in FieldsAt(db', ks.queryKey) <==> ks.queryDateLimit in FieldsAt(db, ks.queryKey))
             && (ks.queryDateLimit in FieldsAt(db, ks.queryKey)
                 ==> FieldsAt(db', ks.queryKey)[ks.queryDateLimit] == FieldsAt(db, ks.queryKey)[ks.queryDateLimit])
             && (ks.cacheKey in db'.data <==> ks.cacheKey in db.data)
             && (ks.cacheKey in db.data ==> db'.data[ks.cacheKey] == db.data[ks.cacheKey])
    ensures Read(fl, db', username, isPrivate, date, limit, fMap, fGet).0
            == Read(fl, db, username, isPrivate, date, limit, fMap, fGet).0
  {
    var ks := KeysOf(fl, username, isPrivate, date, limit);
    assert Indexed(db', ks) == Indexed(db, ks);
  }

}

=== FILE: keys.dfy ===
/** Cache-key derivation: the feed key of an (owner, visibility) pair, the
    page descriptor of a (cursor, limit) pair, and the page key that joins
    them. The tags come from an enumeration that is not part of this model,
    so they are a parameter; every distinctness fact that depends on their
    contents is stated under the explicit assumption `Reserved`. */
module Keys {
  import opened Wrappers
  import Strings

  /** The `Flag` tags spliced into keys. */
  datatype Flags = Flags(userTag: string, privateTag: string, dateTag: string,
                         limitTag: string, current: string)

  /** `s || ""`: an absent or empty string reads as empty. */
  function OrEmpty(s: Option<string>): (r: string) {
    s.GetOr("")
  }

  /** `s` is a JavaScript-truthy string. */
  predicate Given(s: Option<string>) {
    s.Some? && s.value != ""
  }

  /** `b || false`. */
  function OrFalse(b: Option<bool>): (r: bool) {
    b.GetOr(false)
  }

  /** `${b}` for a boolean. */
  function BoolText(b: bool): (t: string) {
    if b then "true" else "false"
  }

  /** Key of the hash that indexes one feed: the user tag, the owner (empty
      for the global feed), the private tag and the visibility flag. */
  function PrimaryKey(fl: Flags, username: Option<string>, isPrivate: Option<bool>): (k: string)
    ensures |k| > |fl.userTag| && k[..|fl.userTag|] == fl.userTag
    ensures |k| >= 4 && (OrFalse(isPrivate) <==> k[|k| - 4..] == "true")
  {
    var k := fl.userTag + OrEmpty(username) + fl.privateTag + BoolText(OrFalse(isPrivate));
    assert k[|k| - 4..] == BoolText(OrFalse(isPrivate))[|BoolText(OrFalse(isPrivate))| - 4..];
    k
  }

  /** Names one page of a feed: the date cursor (or the "current" sentinel
      for the first page), the limit tag and the page size. */
  function Descriptor(fl: Flags, date: Option<string>, limit: int): (d: string)
    ensures |d| > |fl.limitTag|
  {
    var cursor := if OrEmpty(date) == "" then fl.current else OrEmpty(date);
    cursor + fl.limitTag + Strings.IntToString(limit)
  }

  /** Key of the cached payload of one page: feed key, date tag, descriptor. */
  function PageKey(fl: Flags, feed: string, descriptor: string): (k: string)
    ensures |k| == |feed| + |fl.dateTag| + |descriptor|
    ensures k[..|feed|] == feed
  {
    feed + fl.dateTag + descriptor
  }

  datatype KeySet = KeySet(queryKey: string, queryDateLimit: string, cacheKey: string)

  /** All three keys of one page request. */
  function GetKeys(fl: Flags, username: Option<string>, isPrivate: Option<bool>,
                   date: Option<string>, limit: int): (ks: KeySet)
    ensures ks.queryKey == PrimaryKey(fl, username, isPrivate)
    ensures ks.queryDateLimit == Descriptor(fl, date, limit)
    ensures ks.cacheKey == PageKey(fl, ks.queryKey, ks.queryDateLimit)
    ensures |ks.cacheKey| > |ks.queryKey| + |fl.dateTag|
    ensures ks.cacheKey[..|ks.queryKey|] == ks.queryKey
    ensures ks.cacheKey[|ks.queryKey|..|ks.queryKey| + |fl.dateTag|] == fl.dateTag
    ensures ks.cacheKey[|ks.queryKey| + |fl.dateTag|..] == ks.queryDateLimit
  {
    var queryKey := PrimaryKey(fl, username, isPrivate);
    var queryDateLimit := Descriptor(fl, date, limit);
    KeySet(queryKey, queryDateLimit, PageKey(fl, queryKey, queryDateLimit))
  }

  /** A key ending in "true" never equals one ending in "false". */
  lemma TrueFalseSuffix(a: string, b: string)
    ensures a + "true" != b + "false"
  {
    var s1, s2 := a + "true", b + "false";
    if |s1| == |s2| {
      assert s1[|a|] == 't';
      assert s2[|a|] == 'a';
    }
  }

  /** Two feed keys coincide exactly when the owners agree after `|| ""`
      and the flags agree after `|| false`. */
  lemma PrimaryKeyInjective(fl: Flags, u1: Option<string>, p1: Option<bool>,
                            u2: Option<string>, p2: Option<bool>)
    ensures PrimaryKey(fl, u1, p1) == PrimaryKey(fl, u2, p2)
            <==> OrEmpty(u1) == OrEmpty(u2) && OrFalse(p1) == OrFalse(p2)
  {
    var o1, o2 := OrEmpty(u1), OrEmpty(u2);
    var b1, b2 := BoolText(OrFalse(p1)), BoolText(OrFalse(p2));
    var k1 := fl.userTag + o1 + fl.privateTag + b1;
    var k2 := fl.userTag + o2 + fl.privateTag + b2;
    if k1 == k2 {
      if OrFalse(p1) != OrFalse(p2) {
        if OrFalse(p1) {
          TrueFalseSuffix(fl.userTag + o1 + fl.privateTag, fl.userTag + o2 + fl.privateTag);
        } else {
          TrueFalseSuffix(fl.userTag + o2 + fl.privateTag, fl.userTag + o1 + fl.privateTag);
        }
      }
      assert b1 == b2;
      assert |o1| == |o2|;
      assert o1 == k1[|fl.userTag|..|fl.userTag| + |o1|];
      assert o2 == k2[|fl.userTag|..|fl.userTag| + |o2|];
    }
  }

  /** The four feeds (own or global) x (private or public) have four distinct keys. */
  lemma FeedKeysDistinct(fl: Flags, user: string)
    requires user != ""
    ensures |{PrimaryKey(fl, Some(user), Some(true)), PrimaryKey(fl, Some(user), Some(false)),
              PrimaryKey(fl, Some(""), Some(true)), PrimaryKey(fl, Some(""), Some(false))}| == 4
  {
    PrimaryKeyInjective(fl, Some(user), Some(true), Some(user), Some(false));
    PrimaryKeyInjective(fl, Some(user), Some(true), Some(""), Some(true));
    PrimaryKeyInjective(fl, Some(user), Some(true), Some(""), Some(false));
    PrimaryKeyInjective(fl, Some(user), Some(false), Some(""), Some(true));
    PrimaryKeyInjective(fl, Some(user), Some(false), Some(""), Some(false));
    PrimaryKeyInjective(fl, Some(""), Some(true), Some(""), Some(false));
  }

  /** An omitted cursor and an empty one both select the first page. */
  lemma FirstPageSentinel(fl: Flags, username: Option<string>, isPrivate: Option<bool>, limit: int)
    ensures GetKeys(fl, username, isPrivate, None, limit) == GetKeys(fl, username, isPrivate, Some(""), limit)
    ensures Descriptor(fl, None, limit)[..|fl.current|] == fl.current
  {
  }

  /** With the same cursor, distinct page sizes give distinct descriptors. */
  lemma DescriptorSeparatesLimits(fl: Flags, date: Option<string>, l1: int, l2: int)
    ensures Descriptor(fl, date, l1) == Descriptor(fl, date, l2) <==> l1 == l2
  {
    var cursor := if OrEmpty(date) == "" then fl.current else OrEmpty(date);
    var pre := cursor + fl.limitTag;
    if Descriptor(fl, date, l1) == Descriptor(fl, date, l2) {
      assert Strings.IntToString(l1) == Descriptor(fl, date, l1)[|pre|..];
      assert Strings.IntToString(l2) == Descriptor(fl, date, l2)[|pre|..];
      Strings.IntToStringInjective(l1, l2);
    }
  }

  /** The key-separation assumption: the character `c` occurs in the date tag
      and in none of the pieces a feed key is built from. Usernames must avoid
      it too (`Clear`); the blog enforces neither. */
  predicate Reserved(fl: Flags, c: char) {
    c in fl.dateTag && c !in fl.userTag && c !in fl.privateTag && c !in "true" && c !in "false"
  }

  predicate Clear(username: Option<string>, c: char) {
    c !in OrEmpty(username)
  }

  /** Under the assumption, no feed key contains the reserved character. */
  lemma FeedKeyClear(fl: Flags, c: char, username: Option<string>, isPrivate: Option<bool>)
    requires Reserved(fl, c) && Clear(username, c)
    ensures c !in PrimaryKey(fl, username, isPrivate)
  {
    var b := BoolText(OrFalse(isPrivate));
    assert c !in b;
    var k := fl.userTag + OrEmpty(username) + fl.privateTag + b;
    forall i | 0 <= i < |k| ensures k[i] != c {
      var l1, l2, l3 := |fl.userTag|, |OrEmpty(username)|, |fl.privateTag|;
      if i < l1 { assert k[i] == fl.userTag[i]; }
      else if i < l1 + l2 { assert k[i] == OrEmpty(username)[i - l1]; }
      else if i < l1 + l2 + l3 { assert k[i] == fl.privateTag[i - l1 - l2]; }
      else { assert k[i] == b[i - l1 - l2 - l3]; }
    }
  }

  /** Every page key contains the reserved character. */
  lemma PageKeyMarked(fl: Flags, c: char, feed: string, descriptor: string)
    requires Reserved(fl, c)
    ensures c in PageKey(fl, feed, descriptor)
  {
    var i :| 0 <= i < |fl.dateTag| && fl.dateTag[i] == c;
    assert PageKey(fl, feed, descriptor)[|feed| + i] == c;
  }

  /** Under the assumption, page keys of feeds free of the reserved character
      determine their feed and descriptor. */
  lemma PageKeyInjective(fl: Flags, c: char, f1: string, d1: string, f2: string, d2: string)
    requires Reserved(fl, c) && c !in f1 && c !in f2
    ensures PageKey(fl, f1, d1) == PageKey(fl, f2, d2) <==> f1 == f2 && d1 == d2
  {
    if PageKey(fl, f1, d1) == PageKey(fl, f2, d2) {
      Strings.SplitAtReserved(f1, f2, fl.dateTag, d1, d2, c);
    }
  }
}

=== FILE: pager.dfy ===
/** The client feed pager: a state machine over the accumulated post list,
    one date cursor, a loading latch released by a throttle timer, the
    request status and a sticky end-of-feed flag. */
module Pager {
  import opened Wrappers
  import opened Posts
  import Consts
  import Keys

  /** The cursor ref: the empty string it starts as, the millisecond value a
      date parsed to, or NaN when the date did not parse. */
  datatype Cursor = Unset | Millis(ms: int) | NaN

  /** JavaScript truthiness of the cursor: "", 0 and NaN are all falsy. */
  predicate Truthy(c: Cursor) {
    c.Millis? && c.ms != 0
  }

  /** `new Date(s).valueOf()`: `None` stands for NaN. */
  function CursorOf(parsed: Option<int>): (c: Cursor)
    ensures c != Unset
    ensures parsed.Some? ==> c == Millis(parsed.value)
    ensures parsed.None? ==> c == NaN
    ensures Truthy(c) <==> parsed.Some? && parsed.value != 0
  {
    match parsed
    case Some(ms) => Millis(ms)
    case None => NaN
  }

  datatype Status = Idle | Pending

  /** The hook's arguments. `limit` is the page size after the default
      (`Consts.LimitOr`); date parsing and the server's "no post" message
      are parameters. */
  datatype Config = Config(publicPosts: bool, username: Option<string>, limit: int,
                           toMillis: string -> Option<int>, postNA: string)

  /** The query object sent to the posts service; an absent field is `None`. */
  datatype Query = Query(limit: int, isPrivate: bool, createdAt: Option<int>, username: Option<string>)

  /** A response: its status, its `posts` array if any, its message if any. */
  datatype Response = Response(status: int, posts: Option<seq<Post>>, message: Option<string>)

  datatype PagerState = PagerState(posts: seq<Post>, cursor: Cursor, loading: bool, status: Status,
                                   limitReached: bool, unlockDue: bool)

  /** The initial state: `initPosts || []`, an empty cursor, nothing loading. */
  function Init(initPosts: Option<seq<Post>>): (st: PagerState)
    ensures st.posts == initPosts.GetOr([]) && st.cursor == Unset
    ensures !st.loading && st.status == Idle && !st.limitReached
    ensures Inv(st)
  {
    PagerState(initPosts.GetOr([]), Unset, false, Idle, false, false)
  }

  /** A private feed without a username never loads. */
  predicate Blocked(cfg: Config) {
    !cfg.publicPosts && !Keys.Given(cfg.username)
  }

  /** Between calls: a pending request holds the latch; a scheduled unlock
      follows a settled request and still holds it. */
  predicate Inv(st: PagerState) {
    && (st.status == Pending ==> st.loading && !st.unlockDue)
    && (st.unlockDue ==> st.loading && st.status == Idle)
  }

  /** The request for the next page. */
  function BuildQuery(cfg: Config, cursor: Cursor): (q: Query)
    ensures q.limit == cfg.limit
    ensures q.isPrivate <==> !cfg.publicPosts
    ensures q.createdAt.Some? <==> Truthy(cursor)
    ensures Truthy(cursor) ==> q.createdAt == Some(cursor.ms)
    ensures q.username.Some? <==> Keys.Given(cfg.username)
    ensures q.username.Some? ==> q.username == cfg.username
  {
    var q := Query(cfg.limit, true, None, None);
    var q := if Truthy(cursor) then q.(createdAt := Some(cursor.ms)) else q;
    var q := if Keys.Given(cfg.username) then q.(username := cfg.username) else q;
    if cfg.publicPosts then q.(isPrivate := false) else q
  }

  /** Every falsy cursor asks for the first page, and two truthy cursors ask
      for the same page exactly when they hold the same instant. */
  lemma QueryByCursor(cfg: Config, a: Cursor, b: Cursor)
    ensures !Truthy(a) && !Truthy(b) ==> BuildQuery(cfg, a) == BuildQuery(cfg, b)
    ensures Truthy(a) && Truthy(b) ==> (BuildQuery(cfg, a) == BuildQuery(cfg, b) <==> a == b)
    ensures Truthy(a) != Truthy(b) ==> BuildQuery(cfg, a) != BuildQuery(cfg, b)
  {
  }

  /** `loadMoreFn`'s synchronous part: the guard, the latch, the status and
      the request it sends. */
  function LoadMore(cfg: Config, st: PagerState): (r: (PagerState, Option<Query>))
    ensures r.1.Some? <==> !Blocked(cfg) && !st.loading
    ensures r.1.None? ==> r.0 == st
    ensures r.1.Some? ==> r.1.value == BuildQuery(cfg, st.cursor)
    ensures r.1.Some? ==> r.0 == st.(loading := true, status := Pending)
  {
    if Blocked(cfg) || st.loading then (st, None)
    else (st.(loading := true, status := Pending), Some(BuildQuery(cfg, st.cursor)))
  }

  /** Reaching the end of the feed does not stop `loadMore`: only the page
      hides its button. */
  lemma EndDoesNotBlock(cfg: Config, st: PagerState)
    requires st.limitReached
    ensures LoadMore(cfg, st).1 == LoadMore(cfg, st.(limitReached := false)).1
    ensures !Blocked(cfg) && !st.loading ==> LoadMore(cfg, st).1.Some?
  {
  }

  /** The page ends the feed: shorter than the limit (an empty array
      included; a missing array compares false) or the "no post" message. */
  predicate EndOfFeed(cfg: Config, r: Response) {
    (r.posts.Some? && |r.posts.value| < cfg.limit) || r.message == Some(cfg.postNA)
  }

  /** The post list after a successful non-empty page, appended to `base`
      when the cursor is set and replacing it otherwise. */
  function Merge(base: seq<Post>, cursor: Cursor, page: seq<Post>): (posts: seq<Post>)
    ensures Truthy(cursor) ==> |posts| == |base| + |page| && posts[..|base|] == base && posts[|base|..] == page
    ensures !Truthy(cursor) ==> posts == page
  {
    if Truthy(cursor) then base + page else page
  }

  /** The response callback, with `base` the post list the callback sees. */
  function Settle(cfg: Config, st: PagerState, r: Response, base: seq<Post>): (st': PagerState)
    requires st.status == Pending
    ensures st'.status == Idle && st'.unlockDue && st'.loading == st.loading
    ensures st.limitReached ==> st'.limitReached
    ensures r.status != 200 ==> st'.posts == st.posts && st'.cursor == st.cursor && st'.limitReached == st.limitReached
    ensures r.status == 200 ==> (st'.limitReached <==> st.limitReached || EndOfFeed(cfg, r))
    ensures r.status == 200 && r.posts.Some? && |r.posts.value| > 0 ==>
              var page := r.posts.value;
              && st'.posts == Merge(base, st.cursor, page)
              && st'.cursor == CursorOf(cfg.toMillis(page[|page| - 1].createdAt))
    ensures !(r.posts.Some? && |r.posts.value| > 0) ==> st'.posts == st.posts && st'.cursor == st.cursor
  {
    var st1 :=
      if r.status == 200 then
        var st0 :=
          if r.posts.Some? && |r.posts.value| > 0 then
            var page := r.posts.value;
            st.(posts := Merge(base, st.cursor, page), cursor := CursorOf(cfg.toMillis(page[|page| - 1].createdAt)))
          else st;
        if EndOfFeed(cfg, r) then st0.(limitReached := true) else st0
      else st;
    st1.(status := Idle, unlockDue := true)
  }

  /** A response arriving: settles the pending request and schedules the
      unlock; with nothing pending there is nothing to settle. */
  function Respond(cfg: Config, st: PagerState, r: Response): (st': PagerState)
    ensures st.status == Pending ==> st' == Settle(cfg, st, r, st.posts)
    ensures st.status != Pending ==> st' == st
  {
    if st.status == Pending then Settle(cfg, st, r, st.posts) else st
  }

  /** The throttle timer firing: releases the latch a settled request held. */
  function Unlock(st: PagerState): (st': PagerState)
    ensures Inv(st) ==> Inv(st')
    ensures st'.loading <==> st.loading && !st.unlockDue
    ensures !st'.unlockDue
    ensures st'.posts == st.posts && st'.cursor == st.cursor
    ensures st'.status == st.status && st'.limitReached == st.limitReached
  {
    if st.unlockDue then st.(loading := false, unlockDue := false) else st
  }

  /** What can happen to a pager: a `loadMore` call (the button, or the
      effect when `ready`), a response, or the throttle timer. */
  datatype Event = Load | Reply(r: Response) | Throttle

  function Step(cfg: Config, st: PagerState, e: Event): (r: (PagerState, Option<Query>))
    ensures Inv(st) ==> Inv(r.0)
    ensures st.limitReached ==> r.0.limitReached
    ensures st.loading && !r.0.loading ==> e.Throttle?
    ensures r.1.Some? ==> e.Load? && !st.loading && r.0.loading
    ensures !e.Load? ==> r.1.None?
  {
    match e
    case Load => LoadMore(cfg, st)
    case Reply(resp) => (Respond(cfg, st, resp), None)
    case Throttle => (Unlock(st), None)
  }

  /** The states and the requests sent along a sequence of events. */
  function Run(cfg: Config, st: PagerState, es: seq<Event>): (r: (PagerState, seq<Query>))
    decreases |es|
  {
    if |es| == 0 then (st, [])
    else
      var (st1, q) := Step(cfg, st, es[0]);
      var (st2, qs) := Run(cfg, st1, es[1..]);
      (st2, (if q.Some? then [q.value] else []) + qs)
  }

  /** The number of throttle releases among the events. */
  function Throttles(es: seq<Event>): (n: nat)
    decreases |es|
  {
    if |es| == 0 then 0 else (if es[0].Throttle? then 1 else 0) + Throttles(es[1..])
  }

  /** The invariant holds along any run. */
  lemma {:induction false} RunKeepsInv(cfg: Config, st: PagerState, es: seq<Event>)
    requires Inv(st)
    ensures Inv(Run(cfg, st, es).0)
    decreases |es|
  {
    if |es| > 0 {
      RunKeepsInv(cfg, Step(cfg, st, es[0]).0, es[1..]);
    }
  }

  /** Once the end of the feed is reached it stays reached. */
  lemma {:induction false} RunSticky(cfg: Config, st: PagerState, es: seq<Event>)
    requires st.limitReached
    ensures Run(cfg, st, es).0.limitReached
    decreases |es|
  {
    if |es| > 0 {
      RunSticky(cfg, Step(cfg, st, es[0]).0, es[1..]);
    }
  }

  /** Rapid calls do not multiply requests: after the first, each further
      request needs a throttle release in between. */
  lemma {:induction false} RunRequestsBounded(cfg: Config, st: PagerState, es: seq<Event>)
    ensures |Run(cfg, st, es).1| <= Throttles(es) + (if st.loading then 0 else 1)
    decreases |es|
  {
    if |es| > 0 {
      var (st1, q) := Step(cfg, st, es[0]);
      RunRequestsBounded(cfg, st1, es[1..]);
      assert Throttles(es) == (if es[0].Throttle? then 1 else 0) + Throttles(es[1..]);
    }
  }

  /** Without a throttle release the latch holds, whatever else happens. */
  lemma {:induction false} RunLatchHolds(cfg: Config, st: PagerState, es: seq<Event>)
    requires st.loading && Throttles(es) == 0
    ensures Run(cfg, st, es).0.loading && Run(cfg, st, es).1 == []
    decreases |es|
  {
    if |es| > 0 {
      var (st1, q) := Step(cfg, st, es[0]);
      assert !es[0].Throttle?;
      RunLatchHolds(cfg, st1, es[1..]);
    }
  }

  /** From the hook's initial state, along any events: the invariant holds,
      and at most one request more than there were throttle releases is sent. */
  lemma {:induction false} RunFromInit(cfg: Config, initPosts: Option<seq<Post>>, es: seq<Event>)
    ensures Inv(Run(cfg, Init(initPosts), es).0)
    ensures |Run(cfg, Init(initPosts), es).1| <= Throttles(es) + 1
  {
    RunKeepsInv(cfg, Init(initPosts), es);
    RunRequestsBounded(cfg, Init(initPosts), es);
  }

  /** A successful non-empty reply ends in a post whose date parses to a
      non-zero instant; other events constrain nothing. */
  predicate LastDateParses(cfg: Config, e: Event) {
    e.Reply? && e.r.status == 200 && e.r.posts.Some? && |e.r.posts.value| > 0
    ==> var page := e.r.posts.value;
        var parsed := cfg.toMillis(page[|page| - 1].createdAt);
        parsed.Some? && parsed.value != 0
  }

  predicate RepliesParse(cfg: Config, es: seq<Event>) {
    forall i :: 0 <= i < |es| ==> LastDateParses(cfg, es[i])
  }

  /** Once the cursor is set, and as long as every page that arrives ends in
      a parsable date, the post list is only ever extended: what was shown
      stays a prefix of what is shown. */
  lemma {:induction false} RunAppendsOnly(cfg: Config, st: PagerState, es: seq<Event>)
    requires RepliesParse(cfg, es) && Truthy(st.cursor)
    ensures st.posts <= Run(cfg, st, es).0.posts
    ensures Truthy(Run(cfg, st, es).0.cursor)
    decreases |es|
  {
    if |es| > 0 {
      var st1 := Step(cfg, st, es[0]).0;
      assert st.posts <= st1.posts && Truthy(st1.cursor) by {
        if es[0].Reply? && st.status == Pending {
          var r := es[0].r;
          if r.status == 200 && r.posts.Some? && |r.posts.value| > 0 {
            var page := r.posts.value;
            assert st1.posts[..|st.posts|] == st.posts;
            assert LastDateParses(cfg, es[0]);
          }
        }
      }
      assert RepliesParse(cfg, es[1..]) by {
        forall i | 0 <= i < |es| - 1 ensures LastDateParses(cfg, es[1..][i]) {
          assert es[1..][i] == es[i + 1];
        }
      }
      RunAppendsOnly(cfg, st1, es[1..]);
    }
  }

  /** The first pull replaces whatever the page was seeded with, and a pull
      shorter than the limit ends the feed. */
  lemma FirstPullReplaces(cfg: Config, initPosts: Option<seq<Post>>, page: seq<Post>, message: Option<string>)
    requires !Blocked(cfg) && |page| > 0
    ensures var st1 := LoadMore(cfg, Init(initPosts)).0;
            var st2 := Respond(cfg, st1, Response(200, Some(page), message));
            && st2.posts == page && st2.loading && st2.status == Idle
            && (st2.limitReached <==> |page| < cfg.limit || message == Some(cfg.postNA))
  {
  }

  /** The list a memoised callback closes over: React renews the callback
      only when the list's length differs from the one it was made with. */
  function Renewed(seen: seq<Post>, posts: seq<Post>): (s: seq<Post>)
    ensures |s| == |posts|
    ensures |seen| != |posts| ==> s == posts
    ensures |seen| == |posts| ==> s == seen
  {
    if |seen| != |posts| then posts else seen
  }

  /** The response callback as written: it appends to the list its closure
      captured, not to the list currently shown. */
  function RespondAsWritten(cfg: Config, st: PagerState, r: Response, seen: seq<Post>): (st': PagerState)
    ensures st.status == Pending ==> st' == Settle(cfg, st, r, seen)
    ensures st.status != Pending ==> st' == st
  {
    if st.status == Pending then Settle(cfg, st, r, seen) else st
  }

  /** When the first pull returns as many posts as the page was seeded with,
      the callback is not renewed, and the next page is appended to the
      seed instead of to the list shown. */
  lemma StaleAppend(cfg: Config)
    requires cfg.publicPosts && cfg.limit == 1 && cfg.toMillis("b") == Some(5)
    ensures
      var seed := [Post("a", "", false, "a")];
      var latest := [Post("b", "", false, "b")];
      var next := [Post("c", "", false, "c")];
      var st1 := Respond(cfg, LoadMore(cfg, Init(Some(seed))).0, Response(200, Some(latest), None));
      var seen := Renewed(seed, st1.posts);
      var st2 := LoadMore(cfg, Unlock(st1)).0;
      && seen == seed && st1.posts == latest
      && RespondAsWritten(cfg, st2, Response(200, Some(next), None), seen).posts == seed + next
      && Respond(cfg, st2, Response(200, Some(next), None)).posts == latest + next
  {
  }
}

=== FILE: posts.dfy ===
/** Constants of the application and the fields of a post record that the
    cache and the feed pager rely on. */
module Consts {
  import opened Wrappers

  /** Time to live, in seconds, set on every cache key that is written or read. */
  const DEFAULT_EXPIRE: nat := 600
  /** Default page size of a feed request. */
  const PAGINATE_LIMIT: int := 8

  /** `limit = PAGINATE_LIMIT`: an omitted page size takes the default. */
  function LimitOr(limit: Option<int>): (l: int)
    ensures limit.Some? ==> l == limit.value
    ensures limit.None? ==> l == PAGINATE_LIMIT
  {
    limit.GetOr(PAGINATE_LIMIT)
  }
}

module Posts {
  /** A stored post, reduced to the fields the cache and the pager read:
      its identifier, its author, its visibility and its creation timestamp
      (an ISO date string). The other fields of the record are not modelled:
      stored post lists are kept decoded and nothing here reads them. */
  datatype Post = Post(id: string, username: string, isPrivate: bool, createdAt: string)
}

=== FILE: store.dfy ===
/** The cache tier as an abstract key/value store with Redis semantics:
    one namespace holding either a serialized post list or a hash of string
    fields per key, per-key expiry deadlines driven by a logical clock in
    seconds, and an explicit fault for every call. Values serialized to JSON
    are kept decoded (`Doc`): the serialization is assumed to round-trip. */
module Store {
  import opened Wrappers
  import opened Posts
  import Consts

  datatype Value = Doc(posts: seq<Post>) | Hash(fields: map<string, string>)

  /** Live keys, the deadline of each key that has a TTL, and the clock. */
  datatype Db = Db(data: map<string, Value>, expiry: map<string, nat>, now: nat)

  /** What the backend does with one call: answer it, reject it (the call's
      catch path runs), or never answer (the connection stays pending, so a
      timeout wrapper, where there is one, resolves to its default). */
  datatype Fault = Ok | Error | Timeout

  /** Every deadline belongs to a live key and lies in the future. */
  predicate Valid(db: Db) {
    forall k :: k in db.expiry ==> k in db.data && db.expiry[k] > db.now
  }

  /** `k` has the same deadline, or none, in both stores. */
  predicate SameDeadline(db: Db, db': Db, k: string) {
    (k in db'.expiry <==> k in db.expiry) && (k in db.expiry ==> db'.expiry[k] == db.expiry[k])
  }

  /** Every key still live in `db'` kept the deadline it had in `db`. */
  predicate DeadlinesKept(db: Db, db': Db) {
    forall k :: k in db'.data ==> SameDeadline(db, db', k)
  }

  /** A scan leaves a deadline of the full lifetime as it is, even when it
      refreshes that very key. */
  lemma GetMapKeepsDeadline(db: Db, key: string, f: Fault, k: string)
    requires k in db.expiry && db.expiry[k] == Deadline(db)
    ensures k in GetMap(db, key, f).1.expiry && GetMap(db, key, f).1.expiry[k] == Deadline(db)
  {
  }

  /** `k` holds the same value, or none, and the same deadline in both stores. */
  predicate Untouched(db: Db, db': Db, k: string) {
    (k in db'.data <==> k in db.data) && (k in db.data ==> db'.data[k] == db.data[k]) && SameDeadline(db, db', k)
  }

  lemma DeadlinesKeptTrans(d1: Db, d2: Db, d3: Db)
    requires DeadlinesKept(d1, d2) && DeadlinesKept(d2, d3) && d3.data.Keys <= d2.data.Keys
    ensures DeadlinesKept(d1, d3)
  {
  }

  function Deadline(db: Db): (d: nat) {
    db.now + Consts.DEFAULT_EXPIRE
  }

  /** Fields of the hash at `key`; empty when the key is missing or holds a post list. */
  function FieldsAt(db: Db, key: string): (fields: map<string, string>) {
    if key in db.data && db.data[key].Hash? then db.data[key].fields else map[]
  }

  predicate HoldsDoc(db: Db, key: string) {
    key in db.data && db.data[key].Doc?
  }

  predicate HashAt(db: Db, key: string) {
    key in db.data && db.data[key].Hash?
  }

  /** `expire(key, DEFAULT_EXPIRE)`; a missing key is left alone. */
  function Expire(db: Db, key: string): (db': Db)
    ensures db'.data == db.data && db'.now == db.now
    ensures key in db.data ==> key in db'.expiry && db'.expiry[key] == Deadline(db)
    ensures key !in db.data ==> db' == db
    ensures forall k :: k != key ==> (k in db'.expiry <==> k in db.expiry)
    ensures forall k :: k != key && k in db.expiry ==> db'.expiry[k] == db.expiry[k]
    ensures Valid(db) ==> Valid(db')
  {
    if key in db.data then db.(expiry := db.expiry[key := Deadline(db)]) else db
  }

  /** Drops keys together with their deadlines. */
  function Remove(db: Db, keys: set<string>): (db': Db)
    ensures db'.data.Keys == db.data.Keys - keys && db'.now == db.now
    ensures forall k :: k in db'.data ==> db'.data[k] == db.data[k]
    ensures forall k :: k in db'.expiry <==> k in db.expiry && k !in keys
    ensures forall k :: k in db'.expiry ==> db'.expiry[k] == db.expiry[k]
    ensures DeadlinesKept(db, db')
    ensures Valid(db) ==> Valid(db')
  {
    db.(data := db.data - keys, expiry := db.expiry - keys)
  }

  /** `set(posts, key)`: SET replaces whatever the key held (dropping its
      TTL) and EXPIRE then gives it the default lifetime. The flag says
      whether the call settles at all. */
  function SetDoc(db: Db, key: string, posts: seq<Post>, f: Fault): (r: (Db, bool))
    ensures f == Ok ==> key in r.0.data && r.0.data[key] == Doc(posts)
    ensures f == Ok ==> key in r.0.expiry && r.0.expiry[key] == Deadline(db)
    ensures f != Ok ==> r.0 == db
    ensures r.1 <==> f != Timeout
    ensures r.0.now == db.now
    ensures forall k :: k != key ==> (k in r.0.data <==> k in db.data) && (k in r.0.expiry <==> k in db.expiry)
    ensures forall k :: k != key && k in db.data ==> r.0.data[k] == db.data[k]
    ensures forall k :: k != key && k in db.expiry ==> r.0.expiry[k] == db.expiry[k]
    ensures Valid(db) ==> Valid(r.0)
  {
    if f == Ok then
      (Expire(db.(data := db.data[key := Doc(posts)], expiry := db.expiry - {key}), key), true)
    else (db, f != Timeout)
  }

  /** `set(text, key, field)`: HSET stores the field unless the key holds a
      post list (the command is rejected, unobserved); EXPIRE runs either way. */
  function HSet(db: Db, key: string, field: string, text: string, f: Fault): (r: (Db, bool))
    ensures f == Ok && !HoldsDoc(db, key) ==> FieldsAt(r.0, key) == FieldsAt(db, key)[field := text]
    ensures f == Ok ==> key in r.0.data && key in r.0.expiry && r.0.expiry[key] == Deadline(db)
    ensures HoldsDoc(db, key) ==> r.0.data == db.data
    ensures f != Ok ==> r.0 == db
    ensures r.1 <==> f != Timeout
    ensures r.0.now == db.now
    ensures forall k :: k != key ==> (k in r.0.data <==> k in db.data) && (k in r.0.expiry <==> k in db.expiry)
    ensures forall k :: k != key && k in db.data ==> r.0.data[k] == db.data[k]
    ensures forall k :: k != key && k in db.expiry ==> r.0.expiry[k] == db.expiry[k]
    ensures Valid(db) ==> Valid(r.0)
  {
    if f != Ok then (db, f != Timeout)
    else if HoldsDoc(db, key) then (Expire(db, key), true)
    else (Expire(db.(data := db.data[key := Hash(FieldsAt(db, key)[field := text])]), key), true)
  }

  /** `get(default, key)` behind the timeout wrapper: the stored post list on
      a hit, whose TTL is then refreshed; `default` on a miss, on a key of the
      wrong type, on an error and on a timeout. */
  function Get(db: Db, key: string, default: seq<Post>, f: Fault): (r: (seq<Post>, Db))
    ensures f == Ok && HoldsDoc(db, key) ==> r.0 == db.data[key].posts && key in r.1.expiry && r.1.expiry[key] == Deadline(db)
    ensures !(f == Ok && HoldsDoc(db, key)) ==> r == (default, db)
    ensures r.1.data == db.data && r.1.now == db.now
    ensures forall k :: k != key ==> (k in r.1.expiry <==> k in db.expiry)
    ensures forall k :: k != key && k in db.expiry ==> r.1.expiry[k] == db.expiry[k]
    ensures Valid(db) ==> Valid(r.1)
  {
    if f == Ok && HoldsDoc(db, key) then (db.data[key].posts, Expire(db, key)) else (default, db)
  }

  /** `getMap(key)`: all fields of the hash (none for a missing key), with the
      TTL refreshed; the empty map when the call is rejected; `null` (None)
      when the backend never answers. */
  function GetMap(db: Db, key: string, f: Fault): (r: (Option<map<string, string>>, Db))
    ensures f == Ok ==> r.0 == Some(FieldsAt(db, key))
    ensures f == Error ==> r.0 == Some(map[])
    ensures f == Timeout <==> r.0.None?
    ensures f == Ok && key in db.data && db.data[key].Hash? ==> key in r.1.expiry && r.1.expiry[key] == Deadline(db)
    ensures r.1.data == db.data && r.1.now == db.now
    ensures forall k :: k != key ==> (k in r.1.expiry <==> k in db.expiry)
    ensures forall k :: k != key && k in db.expiry ==> r.1.expiry[k] == db.expiry[k]
    ensures Valid(db) ==> Valid(r.1)
  {
    match f
    case Ok =>
      if key in db.data && db.data[key].Hash? then (Some(db.data[key].fields), Expire(db, key))
      else (Some(map[]), db)
    case Error => (Some(map[]), db)
    case Timeout => (None, db)
  }

  function Elems(s: seq<string>): (es: set<string>) {
    set k | k in s
  }

  /** `del(keys)`: an empty list returns at once; otherwise every key goes
      unless the backend is unavailable. */
  function Del(db: Db, keys: seq<string>, f: Fault): (db': Db)
    ensures |keys| == 0 || f != Ok ==> db' == db
    ensures f == Ok ==> db'.data.Keys == db.data.Keys - Elems(keys)
    ensures forall k :: k in db'.data ==> k in db.data && db'.data[k] == db.data[k]
    ensures DeadlinesKept(db, db') && db'.now == db.now
    ensures Valid(db) ==> Valid(db')
  {
    if |keys| == 0 then db
    else if f == Ok then Remove(db, Elems(keys))
    else db
  }

  /** `hdel(key, field)`: removes one field if present; Redis drops a hash
      left empty. */
  function HDel(db: Db, key: string, field: string, f: Fault): (db': Db)
    ensures f == Ok ==> FieldsAt(db', key) == FieldsAt(db, key) - {field}
    ensures f != Ok || field !in FieldsAt(db, key) ==> db' == db
    ensures forall k :: k != key ==> (k in db'.data <==> k in db.data)
    ensures forall k :: k != key && k in db.data ==> db'.data[k] == db.data[k]
    ensures DeadlinesKept(db, db') && db'.now == db.now
    ensures Valid(db) ==> Valid(db')
  {
    if f == Ok && field in FieldsAt(db, key) then
      var rest := db.data[key].fields - {field};
      if rest == map[] then Remove(db, {key}) else db.(data := db.data[key := Hash(rest)])
    else db
  }

  /** Reference for a batch of `hdel` calls on one key: the hash loses every
      field in `fields`, and disappears when nothing is left. */
  function HDelFields(db: Db, key: string, fields: set<string>): (db': Db)
    ensures FieldsAt(db', key) == FieldsAt(db, key) - fields
    ensures fields * FieldsAt(db, key).Keys == {} ==> db' == db
    ensures forall k :: k != key ==> (k in db'.data <==> k in db.data)
    ensures forall k :: k != key && k in db.data ==> db'.data[k] == db.data[k]
    ensures key in db'.data ==> key in db.data && db'.data[key].Hash? == db.data[key].Hash?
    ensures key in db'.data && db'.data[key] != db.data[key] ==> db'.data[key] == Hash(FieldsAt(db, key) - fields)
    ensures DeadlinesKept(db, db') && db'.now == db.now
    ensures Valid(db) ==> Valid(db')
  {
    var m := FieldsAt(db, key);
    if fields * m.Keys != {} then
      var rest := m - fields;
      if rest == map[] then Remove(db, {key}) else db.(data := db.data[key := Hash(rest)])
    else
      forall k | k in m ensures k !in fields {
        assert k !in fields * m.Keys;
      }
      assert (m - fields).Keys == m.Keys;
      db
  }

  /** Thinning one hash leaves the fields of every other key as they were. */
  lemma HDelFieldsElsewhere(db: Db, key: string, fields: set<string>, k: string)
    requires k != key
    ensures FieldsAt(HDelFields(db, key, fields), k) == FieldsAt(db, k)
  {
  }

  /** One more `hdel` extends a batch by one field. */
  lemma HDelExtends(db: Db, key: string, fields: set<string>, field: string)
    ensures HDel(HDelFields(db, key, fields), key, field, Ok) == HDelFields(db, key, fields + {field})
  {
    var m := FieldsAt(db, key);
    if field in m && field !in fields {
      HDelExtendsNew(db, key, fields, field);
    } else {
      HDelExtendsOld(db, key, fields, field);
    }
  }

  /** A field already deleted, or never there, changes nothing. */
  lemma HDelExtendsOld(db: Db, key: string, fields: set<string>, field: string)
    requires field !in FieldsAt(db, key) || field in fields
    ensures HDel(HDelFields(db, key, fields), key, field, Ok) == HDelFields(db, key, fields + {field})
  {
    var m := FieldsAt(db, key);
    assert field !in FieldsAt(HDelFields(db, key, fields), key);
    assert (fields + {field}) * m.Keys == fields * m.Keys;
    assert m - (fields + {field}) == m - fields;
  }

  /** A field still present is removed, and the hash with it when it was the last. */
  lemma HDelExtendsNew(db: Db, key: string, fields: set<string>, field: string)
    requires field in FieldsAt(db, key) && field !in fields
    ensures HDel(HDelFields(db, key, fields), key, field, Ok) == HDelFields(db, key, fields + {field})
  {
    var m := FieldsAt(db, key);
    assert field in (fields + {field}) * m.Keys;
    if fields * m.Keys != {} {
      HDelExtendsLater(db, key, fields, field);
    } else {
      assert HDelFields(db, key, fields) == db;
      assert m - (fields + {field}) == m - {field};
    }
  }

  lemma HDelExtendsLater(db: Db, key: string, fields: set<string>, field: string)
    requires field in FieldsAt(db, key) && field !in fields && fields * FieldsAt(db, key).Keys != {}
    ensures HDel(HDelFields(db, key, fields), key, field, Ok) == HDelFields(db, key, fields + {field})
  {
    var m := FieldsAt(db, key);
    assert field in m - fields;
    var d1 := db.(data := db.data[key := Hash(m - fields)]);
    assert HDelFields(db, key, fields) == d1;
    var rest := m - (fields + {field});
    assert (m - fields) - {field} == rest;
    assert (fields + {field}) * m.Keys != {};
    if rest == map[] {
      assert Remove(d1, {key}) == Remove(db, {key});
    } else {
      assert d1.(data := d1.data[key := Hash(rest)]) == db.(data := db.data[key := Hash(rest)]);
    }
  }

  /** The clock moves forward by `dt` seconds and every key whose deadline
      has passed is gone. */
  function Advance(db: Db, dt: nat): (db': Db)
    ensures db'.now == db.now + dt
    ensures forall k :: k in db'.data <==> k in db.data && !(k in db.expiry && db.expiry[k] <= db.now + dt)
    ensures forall k :: k in db'.data ==> db'.data[k] == db.data[k]
    ensures Valid(db) ==> Valid(db')
  {
    var now := db.now + dt;
    var gone := set k | k in db.expiry && db.expiry[k] <= now;
    Remove(db, gone).(now := now)
  }

  /** A post list read back before its deadline is the one stored; a key
      outlives exactly DEFAULT_EXPIRE seconds without a refresh. */
  lemma SetThenGet(db: Db, key: string, posts: seq<Post>, default: seq<Post>, dt: nat)
    ensures var db1 := Advance(SetDoc(db, key, posts, Ok).0, dt);
            (key in db1.data <==> dt < Consts.DEFAULT_EXPIRE)
            && Get(db1, key, default, Ok).0 == (if dt < Consts.DEFAULT_EXPIRE then posts else default)
  {
  }
}

=== FILE: strings.dfy ===
/** String utilities the cache relies on: the decimal rendering JavaScript
    uses for an integer in a template literal, `String.prototype.includes`,
    and the first-occurrence reasoning that makes a reserved separator
    character split a composite key unambiguously. */
module Strings {

  function DigitChar(d: nat): (c: char)
    requires d < 10
    ensures c as int == '0' as int + d
  {
    ('0' as int + d) as char
  }

  /** Decimal digits of `n`, most significant first, without leading zeros. */
  function Digits(n: nat): (s: string)
    ensures 1 <= |s|
    ensures n >= 10 ==> 2 <= |s|
    ensures forall i :: 0 <= i < |s| ==> '0' <= s[i] <= '9'
  {
    if n < 10 then [DigitChar(n)] else Digits(n / 10) + [DigitChar(n % 10)]
  }

  /** `${n}` for an integral JavaScript number of magnitude below 10^21;
      larger numbers print in exponent form, which is not modelled. */
  function IntToString(n: int): (s: string)
    ensures |s| >= 1
    ensures s[0] == '-' <==> n < 0
  {
    if n < 0 then "-" + Digits(-n) else Digits(n)
  }

  lemma {:induction false} DigitsInjective(a: nat, b: nat)
    requires Digits(a) == Digits(b)
    ensures a == b
  {
    var da, db := Digits(a), Digits(b);
    if a < 10 || b < 10 {
      assert |da| == |db|;
      if a >= 10 || b >= 10 {
        assert false;
      } else {
        assert da[0] == DigitChar(a) && db[0] == DigitChar(b);
      }
    } else {
      assert da == Digits(a / 10) + [DigitChar(a % 10)];
      assert db == Digits(b / 10) + [DigitChar(b % 10)];
      assert da[..|da| - 1] == Digits(a / 10);
      assert db[..|db| - 1] == Digits(b / 10);
      DigitsInjective(a / 10, b / 10);
      assert da[|da| - 1] == DigitChar(a % 10);
      assert db[|db| - 1] == DigitChar(b % 10);
      assert a % 10 == b % 10;
    }
  }

  /** Distinct integers render as distinct strings. */
  lemma IntToStringInjective(a: int, b: int)
    ensures IntToString(a) == IntToString(b) <==> a == b
  {
    var sa, sb := IntToString(a), IntToString(b);
    if sa == sb {
      if a < 0 && b < 0 {
        NegativeDigits(a);
        NegativeDigits(b);
        DigitsInjective(-a, -b);
      } else if a >= 0 && b >= 0 {
        DigitsInjective(a, b);
      } else {
        assert sa[0] == sb[0];
      }
    }
  }

  lemma NegativeDigits(n: int)
    requires n < 0
    ensures IntToString(n)[1..] == Digits(-n)
  {
    assert IntToString(n) == "-" + Digits(-n);
  }

  /** `s.includes(sub)`: some window of `s` equals `sub` (true for an empty `sub`). */
  function Includes(s: string, sub: string): (r: bool)
    decreases |s|
  {
    if |sub| <= |s| && s[..|sub|] == sub then true
    else if |s| == 0 then false
    else Includes(s[1..], sub)
  }

  lemma {:induction false} IncludesAt(s: string, sub: string, i: nat)
    requires i + |sub| <= |s| && s[i..i + |sub|] == sub
    ensures Includes(s, sub)
    decreases i
  {
    if i == 0 {
      assert s[..|sub|] == sub;
    } else if |sub| <= |s| && s[..|sub|] == sub {
    } else {
      assert s[1..][i - 1..i - 1 + |sub|] == s[i..i + |sub|];
      IncludesAt(s[1..], sub, i - 1);
    }
  }

  /** `Includes` finds `sub` wherever it sits inside a concatenation. */
  lemma IncludesMiddle(a: string, sub: string, b: string)
    ensures Includes(a + sub + b, sub)
  {
    var s := a + sub + b;
    assert s[|a|..|a| + |sub|] == sub;
    IncludesAt(s, sub, |a|);
  }

  /** `Includes` is exactly the existence of a matching window. */
  lemma {:induction false} IncludesWitness(s: string, sub: string) returns (i: nat)
    requires Includes(s, sub)
    ensures i + |sub| <= |s| && s[i..i + |sub|] == sub
    decreases |s|
  {
    if |sub| <= |s| && s[..|sub|] == sub {
      i := 0;
    } else {
      var j := IncludesWitness(s[1..], sub);
      assert s[1..][j..j + |sub|] == s[j + 1..j + 1 + |sub|];
      i := j + 1;
    }
  }

  /** A match survives a prefix being put in front. */
  lemma IncludesAfter(pre: string, s: string, sub: string)
    requires Includes(s, sub)
    ensures Includes(pre + s, sub)
  {
    var j := IncludesWitness(s, sub);
    assert (pre + s)[|pre| + j..|pre| + j + |sub|] == s[j..j + |sub|];
    IncludesAt(pre + s, sub, |pre| + j);
  }

  /** Index of the first occurrence of `c` in `s`, or `|s|` when there is none. */
  function Find(s: string, c: char): (i: nat)
    ensures i <= |s|
    ensures i < |s| <==> c in s
    ensures i < |s| ==> s[i] == c
    ensures forall j :: 0 <= j < i ==> s[j] != c
  {
    if |s| == 0 then 0
    else if s[0] == c then 0
    else 1 + Find(s[1..], c)
  }

  lemma {:induction false} FindSkips(a: string, r: string, c: char)
    requires c !in a
    ensures Find(a + r, c) == |a| + Find(r, c)
    decreases |a|
  {
    if |a| == 0 {
      assert a + r == r;
    } else {
      assert (a + r)[0] == a[0];
      assert (a + r)[1..] == a[1..] + r;
      FindSkips(a[1..], r, c);
    }
  }

  /** When `c` sits in the separator `t` and in neither head, the separator
      splits `a + t + x` and `b + t + y` at the same place. */
  lemma SplitAtReserved(a: string, b: string, t: string, x: string, y: string, c: char)
    requires c in t && c !in a && c !in b
    requires a + t + x == b + t + y
    ensures a == b && x == y
  {
    assert a + t + x == a + (t + x);
    assert b + t + y == b + (t + y);
    FindSkips(a, t + x, c);
    FindSkips(b, t + y, c);
    FindPrefix(t, x, c);
    FindPrefix(t, y, c);
    SameLengthSplit(a, b, t + x, t + y);
    SameLengthSplit(t, t, x, y);
  }

  /** Equal concatenations with equally long heads have equal parts. */
  lemma SameLengthSplit(a: string, b: string, r: string, q: string)
    requires a + r == b + q && |a| == |b|
    ensures a == b && r == q
  {
    assert a == (a + r)[..|a|];
    assert b == (b + q)[..|b|];
    assert r == (a + r)[|a|..];
    assert q == (b + q)[|b|..];
  }

  lemma FindPrefix(t: string, x: string, c: char)
    requires c in t
    ensures Find(t + x, c) == Find(t, c)
  {
    var k := Find(t, c);
    assert (t + x)[k] == c;
  }
}

=== FILE: wrappers.dfy ===
/** An optional value, used across the model for values that the blog's
    code may leave `undefined` or `null`. */
module Wrappers {

  datatype Option<+T> = None | Some(value: T) {

    /** The wrapped value, or `default` when there is none. */
    function GetOr(default: T): T {
      match this
      case Some(v) => v
      case None => default
    }
  }
}
